=== FILE: README.md ===
# nats-grpc server core, modelled in Dafny

nats-grpc carries gRPC calls over a NATS message bus. This project models
the server side, `pkg/rpc/server.go`:

- **Subjects.** A service is served under the prefix `nrpc.<nid>.<service>`,
  or `nrpc.<service>` when the node id is empty. The server queue-subscribes
  to `<prefix>.>`, and each method or stream is handled at `<prefix>.<name>`.
- **Registration tables.** `RegisterService` fills the handler table and the
  subscription table, then records a service table that `GetServiceInfo`
  reports.
- **Stream registry.** Every inbound message belongs to the stream named by
  its reply subject. The first message creates that stream. A stream leaves
  the registry when it is torn down: by the caller's cancelling End, by the
  Unimplemented answer to an unknown path, by its handler's return or failed
  header flush (`Servers.HandlerStep`), or by `CloseStream(nid)`, which tears
  down every stream whose caller is node `nid`.
- **Stream state machine.** The caller sends `Call` (metadata and caller
  node id), `Data` and `End` (with a status it cancels; without one it
  closes the caller's sending side). The server answers on the reply
  subject with `Begin` (header and node id), `Data` and a final `End`
  (status and trailer). The handler API is SetHeader, SendHeader,
  SetTrailer, SendMsg and RecvMsg, plus the wrappers that close the stream
  when a unary or streaming handler returns.
- **Metadata.** gRPC's `metadata.Join` concatenates the values per key. The
  model defines it itself, along with the nil-aware merge the server applies
  to call metadata, headers and trailers.

The model is functional. A stream is an immutable `ServerStream` record and
every operation returns a new one. Publishing a Response appends it to the
stream's outbox `out`. The bus is a `Bus` parameter that gives the state
(`Connected` or `Broken`) separately for the header flush, the message and
the closing End of one operation. A publish on a broken link appends nothing
and yields the error. A Go nil map is `None`.
Go's `select` in RecvMsg picks at random when both of its cases are ready,
and the `Pick` parameter is that choice. Handler code, which the server
cannot see, is represented by the events it causes (`Events.Action`).

Modules:
- `Wrappers`: Option and Result.
- `Metadata`: metadata maps, Join and Merge.
- `Subjects`: prefixes, paths, dot tokens and NATS wildcard matching.
- `Protocol`: the envelopes and statuses.
- `Streams`: the per-stream state machine.
- `Events`: the events a stream sees, and one step of a stream.
- `StreamProperties`: runs of a stream.
- `Servers`: registration, registry and shutdown.
- `ServerProperties`: runs of bus messages.

Some behaviours of the code are easy to miss. The model keeps all of them:

- `beginMaybe` publishes a Begin only when a header was set
  (`pkg/rpc/server.go:345`). A handler that sets no header therefore answers
  with Data and End only, with no Begin (`StreamProperties.EchoExchange`).
- `SendMsg` declares a second `err` inside the `if`, which shadows the named
  result (`pkg/rpc/server.go:422`). A marshal failure or a failed Data
  publish is dropped, SendMsg returns nil, and the stream stays open. Only a
  failed header flush closes the stream (`StreamProperties.OnlyHeaderFailureCloses`,
  `StreamProperties.UnencodableResponseEndsOk`).
- When the header flush fails inside `SendMsg`, the deferred `close` still
  publishes the End, with the flush error as its status
  (`pkg/rpc/server.go:414-417`, 366-370; `StreamProperties.FlushFailureEndsCall`).
  A failed flush in `SendHeader` is returned but closes nothing, and the
  header still counts as sent, so later writes are refused and no Begin is
  ever published (`pkg/rpc/server.go:393-399`).
- Neither `SendMsg` nor the publish below it checks whether the stream was
  closed. A handler that sends after its stream ended publishes Data after
  the End (`StreamProperties.DataAfterEnd`).
- RecvMsg's `select` may deliver an already queued message after the caller
  has cancelled (`StreamProperties.CancelledStreamMayDeliver`).
- The protobuf wire format does not encode an empty bytes field. An empty
  message therefore arrives as the same nil item that marks close-send, and
  the handler reads end of stream (`Streams.Arrived`,
  `StreamProperties.EmptyMessageReadsAsEnd`).
- A message that does not decode still creates and registers a stream for its
  reply subject (`pkg/rpc/server.go:216-229`, 355-363;
  `ServerProperties.UndecodableRegistersStream`).
- A second registration of a service name calls `Fatalf`, which ends the
  process. The model returns `Failure(DuplicateService(name))` and leaves the
  server unchanged.

## Model

| member | source | states |
|---|---|---|
| Metadata.JoinAll | pkg/rpc/server.go:311 | the join of a list of metadata maps has the union of their keys, and each key's values are the values of every map in list order (reference definition KeysOf/ValuesOf) |
| Metadata.Join | pkg/rpc/server.go:388 | metadata.Join of two maps: union of keys, values per key concatenated first-then-second |
| Metadata.JoinIsJoinAll | pkg/rpc/server.go:311 | the two-map join is the list join of the two maps |
| Metadata.Merge | pkg/rpc/server.go:385-389 | nil-aware merge: nil only when both are nil, otherwise the join of the present maps |
| Metadata.JoinNeverOverwrites | pkg/rpc/server.go:404-406 | joining never drops or reorders existing values: old values are a prefix and the new ones follow |
| Metadata.JoinAllSplit | pkg/rpc/server.go:303-313 | joining a concatenation of lists equals joining the two partial joins, so metadata accumulated fragment by fragment equals the join of all fragments |
| Metadata.JoinAssociative | pkg/rpc/server.go:385-389 | repeated header/trailer joins are associative |
| Metadata.JoinAssociativeAt | pkg/rpc/server.go:385-389 | associativity at one key |
| Metadata.JoinUnit | pkg/rpc/server.go:308-312 | the empty map is a unit of Join on both sides |
| Metadata.ValuesOfSplit | pkg/rpc/server.go:305-307 | the values of one key over a concatenated list are the two parts' values in order |
| Metadata.KeysOfSplit | pkg/rpc/server.go:305-307 | the keys over a concatenated list are the union of both parts' keys |
| Subjects.Tokens | pkg/rpc/server.go:140-144 | splitting a subject at dots yields at least one token, none containing a dot |
| Subjects.DottedTokens | pkg/rpc/server.go:140-144 | re-joining a subject's tokens with dots gives the subject back |
| Subjects.TokensAppend | pkg/rpc/server.go:151 | the tokens of `a.b` are the tokens of a followed by those of b |
| Subjects.TokensOfToken | pkg/rpc/server.go:151 | a dot-free name is one token |
| Subjects.TokensDotted | pkg/rpc/server.go:144 | splitting a dot-join of dot-free tokens gives the tokens back |
| Subjects.Prefix | pkg/rpc/server.go:140-143 | `nrpc.<service>`, or `nrpc.<nid>.<service>` when the node id is non-empty; its token structure is the contract of Subjects.PrefixTokens |
| Subjects.SubscriptionSubject | pkg/rpc/server.go:144 | the prefix followed by the wildcard token `>`; what it matches is the contract of Subjects.MatchesWildcard and Subjects.SubscriptionCoversPath |
| Subjects.HandlerPath | pkg/rpc/server.go:151 | the prefix followed by the method or stream name; its tokens are the contract of Subjects.PathTokens, and Subjects.HandlerPathInjective and Subjects.HandlerPathsDiffer state that it identifies the name |
| Subjects.PrefixTokens | pkg/rpc/server.go:140-143 | the prefix is `nrpc`, then the node id's tokens when the node id is non-empty, then the service's tokens |
| Subjects.MatchesWildcard | pkg/rpc/server.go:144-146 | a literal pattern followed by `>` matches exactly the subjects that extend it by at least one token |
| Subjects.SubscriptionCoversPath | pkg/rpc/server.go:144-157 | every handler path `<prefix>.<name>` is matched by the service's subscription `<prefix>.>` |
| Subjects.HandlerPathInjective | pkg/rpc/server.go:140-157 | for dot-free service and method names on one node, a handler path determines the service and the name |
| Subjects.PathTokens | pkg/rpc/server.go:140-151 | a handler path splits into `nrpc`, the node id's tokens, the service and the name |
| Subjects.HandlerPathsDiffer | pkg/rpc/server.go:151-157 | distinct names under one prefix get distinct paths |
| Subjects.DottedNamesCollide | pkg/rpc/server.go:140-151 | dotted names collide: service `a.b` method `c` and service `a` method `b.c` share a path |
| Streams.NewStream | pkg/rpc/server.go:262-274 | a new stream is open, empty, un-begun, carries no metadata, and is born cancelled when the server is stopped |
| Streams.Publish | pkg/rpc/server.go:444-451 | a publish that the bus accepts appends exactly that Response and reports no error; a failed one leaves the stream as it was and returns the bus error |
| Streams.Done | pkg/rpc/server.go:276-279 | done cancels the stream and marks it torn down, changes nothing else (it publishes nothing), and keeps the stream invariant; Servers.Settle and Servers.CloseStream carry the removal from the registry |
| Streams.BeginMaybe | pkg/rpc/server.go:342-353 | idempotent; it publishes one Begin with the header and server nid exactly when it has not begun, a header is set and the Begin publish succeeds; it returns that publish's error exactly when it fails |
| Streams.Close | pkg/rpc/server.go:365-372 | close flushes a pending header, then publishes End with the status and the accumulated trailer even if the flush failed, and tears the stream down; on a stream not yet torn down that End is the only End |
| Streams.SetHeader | pkg/rpc/server.go:381-391 | fails with ErrIllegalHeaderWrite exactly when the header has begun, changing nothing; otherwise it merges the new header into the pending one |
| Streams.SendHeader | pkg/rpc/server.go:393-399 | a refused header publishes nothing; otherwise it merges the header and flushes it as one Begin; a failed flush returns the bus error without closing the stream, and a nil header sends nothing and returns nil |
| Streams.SetTrailer | pkg/rpc/server.go:401-407 | merges into the trailer at any time and touches nothing else |
| Streams.SendMsg | pkg/rpc/server.go:413-430 | only a failed header flush errors: it closes the stream with an End carrying that error; otherwise the pending Begin and then the Data are published as far as the bus takes them, an unmarshallable message publishes no Data, and nil is returned; the failure path changes only the teardown flags and the outbox |
| Streams.PublishMessage | pkg/rpc/server.go:421-427 | a marshalled message is appended as Data when the bus takes it; an unmarshallable message or a failed publish leaves the stream as it was |
| Streams.Arrived | pkg/rpc/server.go:318-324 | an empty payload arrives as the nil item, any other as itself |
| Streams.ProcessCall | pkg/rpc/server.go:295-316 | an unregistered path ends the call with End(Unimplemented) and no Data, leaving metadata and caller untouched; a registered one merges metadata, records the caller nid and starts one handler; the unregistered path changes only the teardown flags and the outbox |
| Streams.ProcessData | pkg/rpc/server.go:318-324 | a message is queued at the tail while the sending side is open and dropped after close-send |
| Streams.ProcessEnd | pkg/rpc/server.go:326-340 | End with a status cancels and tears the stream down; without one it queues the nil item and closes the sending side, once |
| Streams.OnRequest | pkg/rpc/server.go:281-293 | a Call on a served path merges its metadata, records the caller nid and starts a handler; on an unserved path it publishes the pending Begin and End(Unimplemented) and tears down; Data is queued while the caller may send and dropped after close-send; an End with a status tears down; close-send queues the nil item once; nothing else changes, and the invariant and identity are kept |
| Streams.RecvMsg | pkg/rpc/server.go:432-442 | select semantics: blocks when nothing is ready; reports cancellation when only the context is ready or it is picked; otherwise pops the queue head as a message, or reports end of stream for the nil item or a closed queue |
| Streams.UnaryReturn | pkg/rpc/server.go:45-63 | after the handler returns, nothing happens if the stream was cancelled; an error closes with that status; a response is sent and the stream closed with OK, or, when the header flush fails, the End carries the flush error; closing changes only the teardown flags and the outbox |
| Streams.StreamReturn | pkg/rpc/server.go:65-72 | a streaming handler's return flushes a pending header and closes the stream with its error, unless the stream was cancelled; closing changes only the teardown flags and the outbox |
| Streams.Cancel | pkg/rpc/server.go:116-117 | server shutdown cancels the stream's context and changes nothing else |
| StreamProperties.RunKeepsValid | pkg/rpc/server.go:342-372 | every sequence of requests, handler calls and shutdowns keeps the stream invariant |
| Events.ApplyKeepsValid | pkg/rpc/server.go:281-442 | each single event keeps the stream invariant |
| Events.ApplyKeepsIdentity | pkg/rpc/server.go:245-260 | no event changes a stream's reply subject or path, and none undoes a cancellation or a teardown |
| StreamProperties.OneBeginNoEarlyEnd | pkg/rpc/server.go:342-372 | from creation, at most one Begin is ever published and only first, and End only at teardown |
| StreamProperties.HeaderFrozen | pkg/rpc/server.go:381-384 | once begun, no event changes the header |
| StreamProperties.CloseSendOnce | pkg/rpc/server.go:319-322 | a second close-send is a no-op and Data after close-send is dropped |
| StreamProperties.FeedQueues | pkg/rpc/server.go:318-324 | Data frames are queued in arrival order |
| StreamProperties.DrainDelivers | pkg/rpc/server.go:432-442 | a queue of non-empty messages and the nil item is received as exactly those messages in order, then end of stream |
| StreamProperties.ClientStreamDelivered | pkg/rpc/server.go:318-340 | a client stream of non-empty messages followed by close-send is received in order, then end of stream |
| StreamProperties.EmptyMessageReadsAsEnd | pkg/rpc/server.go:436-440 | an empty message makes the next receive report end of stream while the sending side is still open |
| StreamProperties.CancelUnblocksReceive | pkg/rpc/server.go:326-329 | an empty live stream blocks its receiver, and a cancelling End or shutdown makes the receive report cancellation for any pick |
| StreamProperties.CancelledStreamMayDeliver | pkg/rpc/server.go:433-438 | after cancellation a queued message can still be delivered when select takes the queue |
| StreamProperties.UnimplementedPublishesOnlyEnd | pkg/rpc/server.go:297-300 | a Call to an unknown path publishes exactly End(Unimplemented) and no Begin |
| StreamProperties.HeadersMergeIntoBegin | pkg/rpc/server.go:381-391 | two header writes are merged into the one Begin, and a later write is refused |
| StreamProperties.CallMetadataAccumulates | pkg/rpc/server.go:303-314 | metadata of two Calls is joined, values in arrival order, and the last caller nid wins |
| StreamProperties.EchoExchange | pkg/rpc/server.go:45-63 | a unary echo answers with Data and End(OK) and no Begin when no header was set |
| StreamProperties.UnencodableResponseEndsOk | pkg/rpc/server.go:413-430 | an unmarshallable unary response ends the call with OK and no message |
| StreamProperties.OnlyHeaderFailureCloses | pkg/rpc/server.go:413-430 | a failed header flush is returned and closes the stream; a failed Data publish is not reported |
| StreamProperties.FlushFailureEndsCall | pkg/rpc/server.go:413-420 | when the header flush fails but the End goes out, the caller gets End with the flush error, and no Begin or Data |
| StreamProperties.DataAfterEnd | pkg/rpc/server.go:413-430 | a send after the stream closed publishes Data after the closing End |
| Servers.NewServer | pkg/rpc/server.go:101-113 | a new server has empty tables, is running, and satisfies the server invariant |
| Servers.Install | pkg/rpc/server.go:149-160 | installing paths maps each listed path to the handler kind and keeps other entries |
| Servers.Table | pkg/rpc/server.go:178-185 | a name-keyed table holds exactly the listed names, each mapped to a descriptor of that name |
| Servers.Info | pkg/rpc/server.go:172-186 | the service entry lists exactly the names of the service's methods and of its streams, each mapped to a descriptor of that name from the service, and keeps its metadata |
| Servers.TableLastWins | pkg/rpc/server.go:178-185 | when names repeat, the table keeps the last descriptor of each name |
| Servers.ServiceHandlers | pkg/rpc/server.go:148-160 | registration adds exactly the service's paths: streams are streaming handlers, methods without a same-named stream are unary, and other paths are unchanged |
| Servers.PathIn | pkg/rpc/server.go:149-158 | the handler path of every listed method or stream is in the path list installed for that list |
| Servers.PathOf | pkg/rpc/server.go:149-158 | every path in an installed path list is the handler path of one of the listed methods or streams |
| Servers.RegisterService | pkg/rpc/server.go:137-187 | registration fails exactly on a duplicate service name; on success it adds the subscription `<prefix>.>` queued by service name and the handlers, records the service entry built from the descriptor (method and stream tables and metadata), and leaves everything else alone |
| Servers.RegisterKeepsValid | pkg/rpc/server.go:137-187 | registration keeps the server invariant: each service has a subscription and a handler for each listed method and stream |
| Servers.DuplicateRefused | pkg/rpc/server.go:169-171 | registering the same service name again is refused |
| Servers.RegisteredStreamFlags | pkg/rpc/server.go:182-185 | registering a service under a new name succeeds, and the stream table holds each stream descriptor under its name (the last one when names repeat), so its streaming flags are the registered ones |
| Servers.UnaryEntries | pkg/rpc/server.go:193-199 | one entry per method and nothing else: every method's name with both streaming flags false occurs exactly once |
| Servers.StreamEntries | pkg/rpc/server.go:200-206 | one entry per stream and nothing else: every stream's name with its client and server streaming flags occurs exactly once |
| Servers.GetServiceInfo | pkg/rpc/server.go:189-214 | one summary per registered service with its metadata, whose entries are, as a multiset, the method entries plus the stream entries: a method and a stream that share a name are listed once each, the method unary and the stream with its flags |
| Servers.Summary | pkg/rpc/server.go:192-212 | one service's summary is its unary entries followed by its stream entries, each counted once |
| Servers.SummaryListsEach | pkg/rpc/server.go:192-212 | a summary lists every method as a unary entry and every stream with its flags, and nothing whose name is neither |
| Servers.OnMessage | pkg/rpc/server.go:216-229 | a Request is processed by the stream already registered under its reply subject, or, when there is none, by a fresh stream on the message subject; undecodable bytes leave that stream as it is; the stream stays registered exactly while it is not torn down; other streams and tables are untouched |
| Servers.Lookup | pkg/rpc/server.go:222-226 | on a valid server the stream a reply subject reaches is filed under that subject, live, valid and cancelled once the server is stopped; a fresh one is empty with the message subject as path; OnMessage's ensures and ServerProperties.SameReplySameStream state that the registered entry is the one returned |
| Servers.Remove | pkg/rpc/server.go:231-235 | removing drops exactly the given reply subject |
| Servers.Settle | pkg/rpc/server.go:222-235 | after a stream step, a torn-down stream is no longer registered and any other is filed under its reply subject, no other entry changes, and the server invariant is kept when the stream is valid, filed under its own reply subject and cancelled on a stopped server |
| Servers.HandlerStep | pkg/rpc/server.go:45-72 | a handler's call or return (never an inbound Request or shutdown, which the server applies itself) acts on its registered stream; a stream it tears down leaves the registry, otherwise the registry holds the new state; other streams are untouched and the server invariant is kept |
| Servers.CloseStream | pkg/rpc/server.go:126-134 | closes and removes exactly the streams whose caller is the given node, leaving the others untouched |
| Servers.Stop | pkg/rpc/server.go:116-124 | shutdown cancels every registered stream and marks the server stopped, keeping the invariant |
| ServerProperties.DeliverKeepsValid | pkg/rpc/server.go:216-235 | every sequence of bus messages keeps the server invariant |
| ServerProperties.DeliverKeepsTables | pkg/rpc/server.go:216-229 | message delivery never changes handlers, subscriptions or services |
| ServerProperties.OtherRepliesLeaveStream | pkg/rpc/server.go:222-226 | messages for other reply subjects leave a registered stream as it is |
| ServerProperties.SameReplySameStream | pkg/rpc/server.go:222-226 | a second message with the same reply subject reaches the stream the first created, whatever its subject |
| ServerProperties.UndecodableRegistersStream | pkg/rpc/server.go:355-363 | an undecodable message still registers a stream for its reply subject |
| ServerProperties.UnknownPathAnswered | pkg/rpc/server.go:297-300 | a Call to an unknown path is answered with one End(Unimplemented) and its stream is removed |
| ServerProperties.RegisteredCallStartsHandler | pkg/rpc/server.go:295-316 | after registration, a Call on a method path starts one handler on a registered stream that records the caller and its metadata |
| ServerProperties.CancelThenFresh | pkg/rpc/server.go:326-329 | a cancelling End removes the stream, and a later message on that reply subject starts a new one |
| ServerProperties.StopReleasesReceivers | pkg/rpc/server.go:116-117 | after shutdown, every waiting receiver reports cancellation, and streams created later are already cancelled |
| ServerProperties.CallDataCloseSend | pkg/rpc/server.go:295-340 | Call, Data and close-send on a served path leave a registered stream with the caller's metadata and nid, the message queued before the nil item, and nothing published |
| ServerProperties.EchoRegistered | pkg/rpc/server.go:140-158 | registering Echo on nodeA installs the unary path `nrpc.nodeA.Echo.Say` under subscription `nrpc.nodeA.Echo.>` |
| ServerProperties.HandlerReturnRemoves | pkg/rpc/server.go:53-70 | a unary or streaming handler's return removes its live stream from the registry; on a cancelled stream neither return changes the server |
| ServerProperties.LateMessageAfterReturn | pkg/rpc/server.go:221-226 | after a handler's return removed its stream, a message on the same reply subject is handled by a new stream |

## Left out

- NATS I/O: subscriptions, publishes and `Flush` are state changes and outbox
  appends. Unsubscribing on shutdown is not modelled, so messages can still
  be delivered after `Stop`, like messages already in flight.
- Goroutines and locking: each bus message is dispatched atomically and in
  order. The receive channel has depth 1 in the code, which can block
  `processData`. The model's queue is unbounded, so the model never blocks a
  sender.
- Context trees: a stream's context is the flag `cancelled`, set by `done`
  or by server shutdown. Go's `ctx.Err()` values are not distinguished.
- Protobuf: `proto.Marshal` and `Unmarshal` of requests, responses and
  handler messages, and `utils.MakeMetadata`. Payloads are byte sequences,
  a message that does not marshal is `Unencodable`, and a request that does
  not decode is `None`. Only the empty-bytes behaviour of the wire format is
  modelled.
- Streams.RecvMsg: does not model an Unmarshal error for a received message; a message is always returned as its bytes.
- `status.Convert`: statuses are the datatype `Status`, and Go's nil error is `Ok`.
- Logging, `Method()`, the `serverTransportStream` delegation and
  `grpc.NewContextWithServerTransportStream`: these only forward calls to
  the stream or produce no state.
- Servers.RegisterService: the duplicate case returns Failure and leaves the server unchanged, whereas the code writes the subscription and handlers before `Fatalf` ends the process.
- Servers.HandlerStep: covers a handler's calls and returns on a stream that is still registered; inbound Requests reach a stream through `OnMessage` and shutdown through `Stop`. A handler that runs on after its stream was removed acts on the stream alone (`Events.Apply`). That its `done` then deletes a newer stream registered under the same reply subject is not modelled.
- Aliasing: `SetHeader` and `SetTrailer` store the caller's map itself when none was set (`pkg/rpc/server.go:386`, 403). A handler that later changes that map changes the Begin or End sent afterwards. The model stores the value, so later changes by the handler are not seen.
- Servers.GetServiceInfo: Go iterates maps in an unspecified order, so the entries are fixed only as a multiset, not in sequence order.
- Servers.CloseStream: the code's map iteration calls `done`, which removes entries through a separate lock. The model removes the matched streams after the scan, and the interleaving is not modelled.
- Subjects.Matches: models NATS token matching (`*` one token, final `>` one or more), the part of the server's behaviour that the subscription relies on; the broker itself is not part of this model.
- Handler bodies and interceptors: a handler is represented by the calls it
  makes (`Events.Action`) and by how it returns (`HandlerResult`).
  The unary interceptor is always nil in the code.

=== FILE: events.dfy ===
/** The events a stream sees: a decoded Request from the caller, a call the
    handler makes on the stream, the handler's return, or server shutdown. */
module Events {
  import opened Wrappers
  import opened Metadata
  import opened Protocol
  import opened Streams

  /** Everything that can happen to a stream: an inbound Request, a call the
      handler makes, a handler returning, or server shutdown. */
  datatype Action =
    | Inbound(req: Request)
    | SetHeaderCall(header: Option<MD>)
    | SendHeaderCall(header: Option<MD>)
    | SetTrailerCall(trailer: Option<MD>)
    | SendMsgCall(m: Outgoing)
    | RecvMsgCall(pick: Pick)
    | UnaryReturned(result: HandlerResult)
    | StreamReturned(err: Status)
    | ServerStopped

  /** One action, with the state of the bus at the publishes it makes. */
  datatype Event = Event(action: Action, bus: Bus)

  /** The stream after one event. */
  function Apply(s: ServerStream, e: Event, nid: string, handlers: set<string>): ServerStream {
    var host := Host(nid, e.bus);
    match e.action
    case Inbound(req) => OnRequest(s, req, handlers, host)
    case SetHeaderCall(header) => SetHeader(s, header).stream
    case SendHeaderCall(header) => SendHeader(s, header, host).stream
    case SetTrailerCall(trailer) => SetTrailer(s, trailer)
    case SendMsgCall(m) => SendMsg(s, m, host).stream
    case RecvMsgCall(pick) => RecvMsg(s, pick).stream
    case UnaryReturned(result) => UnaryReturn(s, result, host)
    case StreamReturned(err) => StreamReturn(s, err, host)
    case ServerStopped => Cancel(s)
  }

  /** Every event keeps the stream invariant. */
  lemma ApplyKeepsValid(s: ServerStream, e: Event, nid: string, handlers: set<string>)
    ensures Valid(s) ==> Valid(Apply(s, e, nid, handlers))
  {
  }

  /** No event changes which call a stream serves, and none undoes a
      cancellation or a teardown. */
  lemma ApplyKeepsIdentity(s: ServerStream, e: Event, nid: string, handlers: set<string>)
    ensures var r := Apply(s, e, nid, handlers);
      && r.reply == s.reply && r.path == s.path
      && (s.cancelled ==> r.cancelled) && (s.finished ==> r.finished)
  {
    var host := Host(nid, e.bus);
    match e.action
    case Inbound(req) =>
    case SetHeaderCall(header) =>
    case SendHeaderCall(header) =>
    case SetTrailerCall(trailer) =>
    case SendMsgCall(m) =>
    case RecvMsgCall(pick) =>
    case UnaryReturned(result) =>
    case StreamReturned(err) =>
    case ServerStopped =>
  }
}

=== FILE: metadata.dfy ===
/** gRPC metadata: an ordered mapping from a key to the sequence of values
    sent under it.  Merging two metadata maps never overwrites a value; the
    values of a key repeated in the second map are appended after those of
    the first (grpc-go's `metadata.Join`, which the server relies on). */
module Metadata {
  import opened Wrappers

  type MD = map<string, seq<string>>

  /** The values recorded under `key`; none when the key is absent. */
  function Get(md: MD, key: string): seq<string> {
    if key in md then md[key] else []
  }

  /** Every key that occurs in one of `mds`. */
  function KeysOf(mds: seq<MD>): set<string> {
    if mds == [] then {} else KeysOf(mds[..|mds| - 1]) + mds[|mds| - 1].Keys
  }

  /** The values of `key` across `mds`, in argument order: the reference
      meaning of a join. */
  function ValuesOf(mds: seq<MD>, key: string): seq<string> {
    if mds == [] then [] else ValuesOf(mds[..|mds| - 1], key) + Get(mds[|mds| - 1], key)
  }

  /** One round of the join loop: each value of `md` is appended after the
      values already collected in `acc`. */
  function Absorb(acc: MD, md: MD): MD {
    map k | k in acc.Keys + md.Keys :: Get(acc, k) + Get(md, k)
  }

  /** `metadata.Join(mds...)`: starts from an empty map and absorbs each
      argument in turn. */
  function JoinAll(mds: seq<MD>): (r: MD)
    ensures r.Keys == KeysOf(mds)
    ensures forall k :: Get(r, k) == ValuesOf(mds, k)
  {
    if mds == [] then map[] else Absorb(JoinAll(mds[..|mds| - 1]), mds[|mds| - 1])
  }

  /** The two-argument join used throughout the server. */
  function Join(a: MD, b: MD): (r: MD)
    ensures r.Keys == a.Keys + b.Keys
    ensures forall k :: Get(r, k) == Get(a, k) + Get(b, k)
  {
    Absorb(a, b)
  }

  /** The two-argument join is `metadata.Join` called with two maps. */
  lemma JoinIsJoinAll(a: MD, b: MD)
    ensures Join(a, b) == JoinAll([a, b])
  {
    var r := JoinAll([a, b]);
    assert [a, b][..1] == [a];
    assert [a][..0] == [];
    assert KeysOf([a]) == a.Keys;
    assert KeysOf([a, b]) == a.Keys + b.Keys;
    assert forall k :: ValuesOf([a], k) == Get(a, k);
    assert forall k :: ValuesOf([a, b], k) == Get(a, k) + Get(b, k);
    GetExtensional(Join(a, b), r);
  }

  /** `r` is what merging `add` into `cur` must give: nil only when both are
      nil, every key of either present, and under each key the values of
      `cur` followed by those of `add`. */
  ghost predicate Joined(cur: Option<MD>, add: Option<MD>, r: Option<MD>) {
    && (r.None? <==> cur.None? && add.None?)
    && (r.Some? ==> r.value.Keys == cur.GetOr(map[]).Keys + add.GetOr(map[]).Keys)
    && (r.Some? ==> forall k :: Get(r.value, k) == Get(cur.GetOr(map[]), k) + Get(add.GetOr(map[]), k))
  }

  /** The nil-aware update the server applies to its header, trailer and
      incoming metadata: a nil current map is replaced by `add`, a non-nil
      one is joined with a non-nil `add`, and a nil `add` changes nothing. */
  function Merge(cur: Option<MD>, add: Option<MD>): (r: Option<MD>)
    ensures Joined(cur, add, r)
    ensures r.Some? ==> r.value == Join(cur.GetOr(map[]), add.GetOr(map[]))
  {
    if cur.None? then
      if add.Some? then JoinUnit(add.value); add else add
    else if add.Some? then Some(Join(cur.value, add.value))
    else JoinUnit(cur.value); cur
  }

  /** Joining keeps every value already present: the old values of a key are
      a prefix of its joined values and the added ones their suffix. */
  lemma JoinNeverOverwrites(a: MD, b: MD, k: string)
    ensures Get(a, k) <= Get(Join(a, b), k)
    ensures Get(Join(a, b), k)[|Get(a, k)|..] == Get(b, k)
  {
  }

  /** Joining a list of maps in one call equals joining the joins of any
      split of the list: the result does not depend on how the fragments
      were grouped. */
  lemma {:induction false} JoinAllSplit(xs: seq<MD>, ys: seq<MD>)
    ensures JoinAll(xs + ys) == Join(JoinAll(xs), JoinAll(ys))
  {
    forall k
      ensures Get(JoinAll(xs + ys), k) == Get(Join(JoinAll(xs), JoinAll(ys)), k)
    {
      ValuesOfSplit(xs, ys, k);
    }
    KeysOfSplit(xs, ys);
    GetExtensional(JoinAll(xs + ys), Join(JoinAll(xs), JoinAll(ys)));
  }

  /** Join is associative. */
  lemma JoinAssociative(a: MD, b: MD, c: MD)
    ensures Join(Join(a, b), c) == Join(a, Join(b, c))
  {
    var l, r := Join(Join(a, b), c), Join(a, Join(b, c));
    forall k
      ensures Get(l, k) == Get(r, k)
    {
      JoinAssociativeAt(a, b, c, k);
    }
    GetExtensional(l, r);
  }

  /** Join is associative at every key. */
  lemma JoinAssociativeAt(a: MD, b: MD, c: MD, k: string)
    ensures Get(Join(Join(a, b), c), k) == Get(Join(a, Join(b, c)), k)
  {
  }

  /** The empty map is a unit of Join on both sides. */
  lemma JoinUnit(a: MD)
    ensures Join(map[], a) == a
    ensures Join(a, map[]) == a
  {
    var e: MD := map[];
    var l, r := Join(e, a), Join(a, e);
    assert l.Keys == a.Keys && r.Keys == a.Keys;
    assert forall k :: Get(l, k) == Get(a, k);
    assert forall k :: Get(r, k) == Get(a, k);
    GetExtensional(l, a);
    GetExtensional(r, a);
  }

  lemma {:induction false} ValuesOfSplit(xs: seq<MD>, ys: seq<MD>, k: string)
    ensures ValuesOf(xs + ys, k) == ValuesOf(xs, k) + ValuesOf(ys, k)
    decreases |ys|
  {
    if ys == [] {
      assert xs + ys == xs;
    } else {
      var n := |ys| - 1;
      var zs := xs + ys;
      assert zs[..|zs| - 1] == xs + ys[..n];
      assert zs[|zs| - 1] == ys[n];
      ValuesOfSplit(xs, ys[..n], k);
      var a, b, c := ValuesOf(xs, k), ValuesOf(ys[..n], k), Get(ys[n], k);
      assert ValuesOf(zs, k) == (a + b) + c;
      assert ValuesOf(ys, k) == b + c;
      assert (a + b) + c == a + (b + c);
    }
  }

  lemma {:induction false} KeysOfSplit(xs: seq<MD>, ys: seq<MD>)
    ensures KeysOf(xs + ys) == KeysOf(xs) + KeysOf(ys)
    decreases |ys|
  {
    if ys == [] {
      assert xs + ys == xs;
    } else {
      var n := |ys| - 1;
      assert (xs + ys)[..|xs + ys| - 1] == xs + ys[..n];
      KeysOfSplit(xs, ys[..n]);
    }
  }

  /** Two maps with the same keys and the same values under every key are equal. */
  lemma GetExtensional(a: MD, b: MD)
    requires a.Keys == b.Keys
    requires forall k :: Get(a, k) == Get(b, k)
    ensures a == b
  {
    forall k | k in a
      ensures a[k] == b[k]
    {
      assert Get(a, k) == Get(b, k);
    }
  }
}

=== FILE: protocol.dfy ===
/** The wire envelopes exchanged on the bus, as datatypes; their protobuf
    encoding is not modelled.  A Request travels from the caller to the
    server on a handler path, a Response from the server to the caller's
    reply subject. */
module Protocol {
  import opened Wrappers
  import opened Metadata

  newtype byte = x: int | 0 <= x < 256

  /** An opaque, already serialized message. */
  type Bytes = seq<byte>

  /** The status a stream ends with.  `Ok` is what a nil Go error converts to;
      `Unimplemented` is sent for a path without a handler; every other error
      is carried with its message. */
  datatype Status = Ok | Unimplemented | Failed(message: string)

  /** The error a header write after the first header transmission returns. */
  const IllegalHeaderWrite: Status := Failed("transport: the stream is done or WriteHeader was already called")

  /** Caller to server: open a call, send one message, or end.  An End with a
      status cancels the call; an End without one only closes the caller's
      sending side. */
  datatype Request =
    | Call(metadata: Option<MD>, nid: string)
    | Data(payload: Bytes)
    | End(status: Option<Status>)

  /** Server to caller: the header (with the server's node id), one message,
      or the terminal status with the trailer. */
  datatype Response =
    | Begin(header: MD, nid: string)
    | Data(payload: Bytes)
    | End(status: Status, trailer: Option<MD>)
}

=== FILE: server.dfy ===
/** The server: service registration (subscription subject, handler table,
    service table), introspection, and the registry of live streams keyed by
    reply subject.  Subscribing, publishing and flushing on the bus are not
    modelled; the subscription table records what was subscribed. */
module Servers {
  import opened Wrappers
  import opened Metadata
  import opened Protocol
  import opened Subjects
  import opened Streams
  import opened Events

  /** The wrapper a handler path dispatches to. */
  datatype Kind = Unary | Streaming

  datatype MethodDesc = MethodDesc(name: string)
  datatype StreamDesc = StreamDesc(name: string, clientStreams: bool, serverStreams: bool)

  /** A generated service descriptor. */
  datatype ServiceDesc = ServiceDesc(name: string, methods: seq<MethodDesc>, streams: seq<StreamDesc>, metadata: string)

  /** What the server keeps per registered service. */
  datatype ServiceInfo = ServiceInfo(methods: map<string, MethodDesc>, streams: map<string, StreamDesc>, metadata: string)

  /** A queue-group subscription on the bus. */
  datatype Subscription = Subscription(subject: string, queue: string)

  /** One entry of the introspection result. */
  datatype MethodInfo = MethodInfo(name: string, isClientStream: bool, isServerStream: bool)

  /** The introspection result for one service. */
  datatype ServiceSummary = ServiceSummary(methods: seq<MethodInfo>, metadata: string)

  datatype RegisterError = DuplicateService(name: string)

  datatype Server = Server(
    nid: string,                         // this server's node id, possibly empty
    handlers: map<string, Kind>,         // handler path -> wrapper
    streams: map<string, ServerStream>,  // reply subject -> live stream
    subs: map<string, Subscription>,     // service name -> subscription
    services: map<string, ServiceInfo>,  // service name -> registered service
    stopped: bool)                       // the server's context is cancelled

  /** A message routed to a stream: the server afterwards and the state of
      the stream that processed it. */
  datatype Dispatch = Dispatch(server: Server, stream: ServerStream)

  /** The server invariant: every registered stream is filed under its own
      reply subject, has not been torn down and keeps the stream invariant;
      after shutdown every registered stream is cancelled; each registered
      service has its subscription and a handler for each of its methods and
      streams. */
  ghost predicate Valid(srv: Server) {
    && (forall k | k in srv.streams ::
          srv.streams[k].reply == k && !srv.streams[k].finished && Streams.Valid(srv.streams[k]))
    && (srv.stopped ==> forall k | k in srv.streams :: srv.streams[k].cancelled)
    && srv.subs.Keys == srv.services.Keys
    && (forall n, m | n in srv.services && m in srv.services[n].methods ::
          HandlerPath(Prefix(srv.nid, n), m) in srv.handlers)
    && (forall n, m | n in srv.services && m in srv.services[n].streams ::
          HandlerPath(Prefix(srv.nid, n), m) in srv.handlers)
  }

  function NewServer(nid: string): (srv: Server)
    ensures Valid(srv)
    ensures srv.nid == nid && !srv.stopped
    ensures srv.handlers == map[] && srv.streams == map[] && srv.services == map[]
  {
    Server(nid, map[], map[], map[], map[], false)
  }

  /** Installs `kind` under each of `paths`, in order. */
  function Install(h: map<string, Kind>, paths: seq<string>, kind: Kind): (r: map<string, Kind>)
    ensures r.Keys == h.Keys + (set p | p in paths)
    ensures forall p | p in paths :: r[p] == kind
    ensures forall p | p in h && p !in paths :: r[p] == h[p]
    decreases |paths|
  {
    if paths == [] then h else Install(h[paths[0] := kind], paths[1..], kind)
  }

  /** The handler paths of the given method or stream names. */
  function Paths(prefix: string, names: seq<string>): seq<string> {
    seq(|names|, i requires 0 <= i < |names| => HandlerPath(prefix, names[i]))
  }

  function MethodName(d: MethodDesc): string { d.name }
  function StreamName(d: StreamDesc): string { d.name }

  /** The names of the descriptors `ds`, in order. */
  function Names<D>(ds: seq<D>, name: D -> string): seq<string> {
    seq(|ds|, i requires 0 <= i < |ds| => name(ds[i]))
  }

  /** A descriptor table keyed by name, later entries replacing earlier ones
      with the same name. */
  function Table<D>(ds: seq<D>, name: D -> string): (r: map<string, D>)
    ensures r.Keys == set d | d in ds :: name(d)
    ensures forall k | k in r :: r[k] in ds && name(r[k]) == k
    decreases |ds|
  {
    if ds == [] then map[]
    else
      var n := |ds| - 1;
      assert forall d | d in ds :: d in ds[..n] || d == ds[n];
      Table(ds[..n], name)[name(ds[n]) := ds[n]]
  }

  /** When several descriptors share a name, the table keeps the last. */
  lemma {:induction false} TableLastWins<D>(ds: seq<D>, name: D -> string, i: int)
    requires 0 <= i < |ds| && LastNamed(ds, name, i)
    ensures name(ds[i]) in Table(ds, name) && Table(ds, name)[name(ds[i])] == ds[i]
    decreases |ds|
  {
    var n := |ds| - 1;
    assert ds[i] in ds;
    if i < n {
      assert name(ds[n]) != name(ds[i]);
      assert LastNamed(ds[..n], name, i);
      TableLastWins(ds[..n], name, i);
    }
  }

  /** No entry after position `i` has the name of entry `i`. */
  ghost predicate LastNamed<D>(ds: seq<D>, name: D -> string, i: int)
    requires 0 <= i < |ds|
  {
    forall j | i < j < |ds| :: name(ds[j]) != name(ds[i])
  }

  /** `register`'s service entry for a descriptor. */
  function Info(sd: ServiceDesc): (r: ServiceInfo)
    ensures r.methods.Keys == (set m | m in sd.methods :: m.name)
    ensures r.streams.Keys == (set st | st in sd.streams :: st.name)
    ensures forall k | k in r.methods :: r.methods[k] in sd.methods && r.methods[k].name == k
    ensures forall k | k in r.streams :: r.streams[k] in sd.streams && r.streams[k].name == k
    ensures r.metadata == sd.metadata
  {
    ServiceInfo(Table(sd.methods, MethodName), Table(sd.streams, StreamName), sd.metadata)
  }

  /** The handler paths of a service's methods and streams. */
  function ServicePaths(prefix: string, sd: ServiceDesc): set<string> {
    (set m | m in sd.methods :: HandlerPath(prefix, m.name))
    + (set st | st in sd.streams :: HandlerPath(prefix, st.name))
  }

  /** The handler table after installing a service under `prefix`: every
      method as a unary handler and then every stream as a streaming handler,
      so that a stream replaces a method of the same name; every other path
      keeps its handler. */
  function ServiceHandlers(h: map<string, Kind>, prefix: string, sd: ServiceDesc): (r: map<string, Kind>)
    ensures r.Keys == h.Keys + ServicePaths(prefix, sd)
    ensures forall st | st in sd.streams :: r[HandlerPath(prefix, st.name)] == Streaming
    ensures forall m | m in sd.methods && m.name !in Names(sd.streams, StreamName) ::
      r[HandlerPath(prefix, m.name)] == Unary
    ensures forall p | p in h && p !in ServicePaths(prefix, sd) :: r[p] == h[p]
  {
    var methodPaths := Paths(prefix, Names(sd.methods, MethodName));
    var streamPaths := Paths(prefix, Names(sd.streams, StreamName));
    forall m | m in sd.methods
      ensures HandlerPath(prefix, m.name) in methodPaths
    {
      PathIn(prefix, sd.methods, MethodName, m);
    }
    forall st | st in sd.streams
      ensures HandlerPath(prefix, st.name) in streamPaths
    {
      PathIn(prefix, sd.streams, StreamName, st);
    }
    forall p | p in methodPaths
      ensures p in ServicePaths(prefix, sd)
    {
      var m := PathOf(prefix, sd.methods, MethodName, p);
    }
    forall p | p in streamPaths
      ensures p in ServicePaths(prefix, sd)
    {
      var st := PathOf(prefix, sd.streams, StreamName, p);
    }
    StreamsOverrideOnlyTheirNames(prefix, sd);
    Install(Install(h, methodPaths, Unary), streamPaths, Streaming)
  }

  /** Each descriptor's handler path is in the path list. */
  lemma PathIn<D>(prefix: string, ds: seq<D>, name: D -> string, d: D)
    requires d in ds
    ensures HandlerPath(prefix, name(d)) in Paths(prefix, Names(ds, name))
  {
    var i :| 0 <= i < |ds| && ds[i] == d;
    assert Paths(prefix, Names(ds, name))[i] == HandlerPath(prefix, name(d));
  }

  /** Each path in the path list is the handler path of some descriptor. */
  lemma PathOf<D>(prefix: string, ds: seq<D>, name: D -> string, p: string) returns (d: D)
    requires p in Paths(prefix, Names(ds, name))
    ensures d in ds && p == HandlerPath(prefix, name(d))
  {
    var i :| 0 <= i < |ds| && Paths(prefix, Names(ds, name))[i] == p;
    d := ds[i];
  }

  /** A method whose name no stream shares keeps its path out of the
      streams' path list. */
  lemma StreamsOverrideOnlyTheirNames(prefix: string, sd: ServiceDesc)
    ensures forall m | m in sd.methods && m.name !in Names(sd.streams, StreamName) ::
      HandlerPath(prefix, m.name) !in Paths(prefix, Names(sd.streams, StreamName))
  {
    var names := Names(sd.streams, StreamName);
    var streamPaths := Paths(prefix, names);
    forall m, i | m in sd.methods && m.name !in names && 0 <= i < |streamPaths|
      ensures streamPaths[i] != HandlerPath(prefix, m.name)
    {
      assert names[i] in names;
      HandlerPathsDiffer(prefix, names[i], m.name);
    }
  }

  /** `RegisterService` followed by `register`: a service name that is
      already registered is refused (the Go server aborts the process).
      Otherwise the service is subscribed on `<prefix>.>` in the queue group
      named after it, its handlers are installed, and the service table
      records its methods and streams by name. */
  function RegisterService(srv: Server, sd: ServiceDesc): (r: Result<Server, RegisterError>)
    ensures r.Failure? <==> sd.name in srv.services
    ensures r.Failure? ==> r.error == DuplicateService(sd.name)
    ensures r.Success? ==>
      var prefix := Prefix(srv.nid, sd.name);
      var s := r.value;
      && s == srv.(handlers := s.handlers, subs := s.subs, services := s.services)
      && s.subs == srv.subs[sd.name := Subscription(SubscriptionSubject(prefix), sd.name)]
      && s.handlers == ServiceHandlers(srv.handlers, prefix, sd)
      && s.services.Keys == srv.services.Keys + {sd.name}
      && (forall n | n in srv.services :: s.services[n] == srv.services[n])
      && s.services[sd.name].methods.Keys == (set m | m in sd.methods :: m.name)
      && s.services[sd.name].streams.Keys == (set st | st in sd.streams :: st.name)
      && s.services[sd.name].metadata == sd.metadata
      && s.services[sd.name] == Info(sd)
  {
    if sd.name in srv.services then Failure(DuplicateService(sd.name))
    else
      var prefix := Prefix(srv.nid, sd.name);
      Success(srv.(
        subs := srv.subs[sd.name := Subscription(SubscriptionSubject(prefix), sd.name)],
        handlers := ServiceHandlers(srv.handlers, prefix, sd),
        services := srv.services[sd.name := Info(sd)]))
  }

  /** Registering a service keeps the server invariant: in particular every
      method and stream the service table lists has a handler. */
  lemma RegisterKeepsValid(srv: Server, sd: ServiceDesc)
    requires Valid(srv)
    requires RegisterService(srv, sd).Success?
    ensures Valid(RegisterService(srv, sd).value)
  {
    var s := RegisterService(srv, sd).value;
    var prefix := Prefix(srv.nid, sd.name);
    forall n, m | n in s.services && m in s.services[n].methods
      ensures HandlerPath(Prefix(s.nid, n), m) in s.handlers
    {
      if n == sd.name {
        var d :| d in sd.methods && d.name == m;
        assert HandlerPath(prefix, d.name) in ServicePaths(prefix, sd);
      }
    }
    forall n, m | n in s.services && m in s.services[n].streams
      ensures HandlerPath(Prefix(s.nid, n), m) in s.handlers
    {
      if n == sd.name {
        var d :| d in sd.streams && d.name == m;
        assert HandlerPath(prefix, d.name) in ServicePaths(prefix, sd);
      }
    }
  }

  /** The stream table records each stream descriptor under its name, the
      last one when names repeat, so its streaming flags are the registered
      ones. */
  lemma RegisteredStreamFlags(srv: Server, sd: ServiceDesc, i: int)
    requires sd.name !in srv.services
    requires 0 <= i < |sd.streams|
    requires forall j | i < j < |sd.streams| :: sd.streams[j].name != sd.streams[i].name
    ensures RegisterService(srv, sd).Success?
    ensures var info := RegisterService(srv, sd).value.services[sd.name];
      && sd.streams[i].name in info.streams
      && info.streams[sd.streams[i].name] == sd.streams[i]
  {
    assert LastNamed(sd.streams, StreamName, i);
    TableLastWins(sd.streams, StreamName, i);
  }

  /** A second registration under a registered name is refused, whatever the
      descriptor. */
  lemma DuplicateRefused(srv: Server, sd: ServiceDesc, again: ServiceDesc)
    requires RegisterService(srv, sd).Success? && again.name == sd.name
    ensures RegisterService(RegisterService(srv, sd).value, again) == Failure(DuplicateService(sd.name))
  {
  }

  /** How often introspection lists `e` for the methods named in `names`:
      once when it names one of them with neither side streaming. */
  function UnaryCount(names: set<string>, e: MethodInfo): nat {
    if e.name in names && !e.isClientStream && !e.isServerStream then 1 else 0
  }

  /** How often introspection lists `e` for the streams of `streams` named
      in `names`: once when it names one of them with that stream's flags. */
  function StreamCount(streams: map<string, StreamDesc>, names: set<string>, e: MethodInfo): nat {
    if e.name in names && e.name in streams
       && e.isClientStream == streams[e.name].clientStreams
       && e.isServerStream == streams[e.name].serverStreams
    then 1 else 0
  }

  /** What `GetServiceInfo` reports for one service: its metadata, and each
      method and each stream exactly once, a method that shares its name
      with a stream included. */
  ghost predicate Summarizes(sum: ServiceSummary, info: ServiceInfo) {
    && sum.metadata == info.metadata
    && |sum.methods| == |info.methods| + |info.streams|
    && (forall e :: multiset(sum.methods)[e] == UnaryCount(info.methods.Keys, e) + StreamCount(info.streams, info.streams.Keys, e))
  }

  /** The introspection entries of a service's unary methods, one per
      method, both streaming flags false. */
  method UnaryEntries(methods: map<string, MethodDesc>) returns (r: seq<MethodInfo>)
    ensures |r| == |methods|
    ensures forall e :: multiset(r)[e] == UnaryCount(methods.Keys, e)
  {
    r := [];
    var rest := methods.Keys;
    ghost var seen: set<string> := {};
    while rest != {}
      invariant seen !! rest && seen + rest == methods.Keys
      invariant |r| == |seen|
      invariant forall e :: multiset(r)[e] == UnaryCount(seen, e)
      decreases rest
    {
      var m :| m in rest;
      var x := MethodInfo(m, false, false);
      r := r + [x];
      rest := rest - {m};
      seen := seen + {m};
    }
  }

  /** The introspection entries of a service's streams, one per stream, with
      the stream's client- and server-streaming flags. */
  method StreamEntries(streams: map<string, StreamDesc>) returns (r: seq<MethodInfo>)
    ensures |r| == |streams|
    ensures forall e :: multiset(r)[e] == StreamCount(streams, streams.Keys, e)
  {
    r := [];
    var rest := streams.Keys;
    ghost var seen: set<string> := {};
    while rest != {}
      invariant seen !! rest && seen + rest == streams.Keys
      invariant |r| == |seen|
      invariant forall e :: multiset(r)[e] == StreamCount(streams, seen, e)
      decreases rest
    {
      var m :| m in rest;
      var x := MethodInfo(m, streams[m].clientStreams, streams[m].serverStreams);
      r := r + [x];
      rest := rest - {m};
      seen := seen + {m};
    }
  }

  /** The introspection summary of one service: the unary entries followed
      by the streaming ones. */
  method Summary(info: ServiceInfo) returns (sum: ServiceSummary)
    ensures Summarizes(sum, info)
  {
    var unary := UnaryEntries(info.methods);
    var streaming := StreamEntries(info.streams);
    sum := ServiceSummary(unary + streaming, info.metadata);
  }

  /** A summary lists every method as a unary entry and every stream with
      its flags, and lists nothing that is neither. */
  lemma SummaryListsEach(sum: ServiceSummary, info: ServiceInfo)
    requires Summarizes(sum, info)
    ensures forall m | m in info.methods :: MethodInfo(m, false, false) in sum.methods
    ensures forall m | m in info.streams ::
      MethodInfo(m, info.streams[m].clientStreams, info.streams[m].serverStreams) in sum.methods
    ensures forall i | 0 <= i < |sum.methods| ::
      sum.methods[i].name in info.methods || sum.methods[i].name in info.streams
  {
    forall m | m in info.methods
      ensures MethodInfo(m, false, false) in sum.methods
    {
      assert multiset(sum.methods)[MethodInfo(m, false, false)] > 0;
    }
    forall m | m in info.streams
      ensures MethodInfo(m, info.streams[m].clientStreams, info.streams[m].serverStreams) in sum.methods
    {
      assert multiset(sum.methods)[MethodInfo(m, info.streams[m].clientStreams, info.streams[m].serverStreams)] > 0;
    }
    forall i | 0 <= i < |sum.methods|
      ensures sum.methods[i].name in info.methods || sum.methods[i].name in info.streams
    {
      assert multiset(sum.methods)[sum.methods[i]] > 0;
    }
  }

  /** `GetServiceInfo`: for each registered service, its introspection
      entries and metadata. */
  method GetServiceInfo(srv: Server) returns (r: map<string, ServiceSummary>)
    ensures r.Keys == srv.services.Keys
    ensures forall n | n in r :: Summarizes(r[n], srv.services[n])
  {
    r := map[];
    var rest := srv.services.Keys;
    while rest != {}
      invariant rest <= srv.services.Keys
      invariant r.Keys == srv.services.Keys - rest
      invariant forall n | n in r :: Summarizes(r[n], srv.services[n])
      decreases rest
    {
      var n :| n in rest;
      var sum := Summary(srv.services[n]);
      r := r[n := sum];
      rest := rest - {n};
    }
  }

  /** The stream a message with reply subject `reply` goes to: the registered
      one, or a fresh stream for the message's subject. */
  function Lookup(srv: Server, subject: string, reply: string): (s: ServerStream)
    ensures Valid(srv) ==> s.reply == reply && !s.finished && Streams.Valid(s) && (srv.stopped ==> s.cancelled)
    ensures reply !in srv.streams ==> s.path == subject && s.queue == [] && s.out == []
  {
    if reply in srv.streams then srv.streams[reply] else NewStream(subject, reply, srv.stopped)
  }

  /** `onMessage`: look up or create the stream for the reply subject and let
      it process the Request (None for bytes that did not decode, which the
      stream ignores).  A stream that the Request tore down leaves the
      registry; any other stays registered under its reply subject. */
  function OnMessage(srv: Server, subject: string, reply: string, req: Option<Request>, bus: Bus): (d: Dispatch)
    ensures d.server == srv.(streams := d.server.streams)
    ensures reply in srv.streams ==> d.stream.path == srv.streams[reply].path
    ensures reply !in srv.streams ==> d.stream.path == subject
    ensures reply in srv.streams ==>
      d.stream == (if req.Some? then OnRequest(srv.streams[reply], req.value, srv.handlers.Keys, Host(srv.nid, bus))
                   else srv.streams[reply])
    ensures reply !in srv.streams ==>
      d.stream == (if req.Some? then OnRequest(NewStream(subject, reply, srv.stopped), req.value, srv.handlers.Keys, Host(srv.nid, bus))
                   else NewStream(subject, reply, srv.stopped))
    ensures d.stream.finished <==> reply !in d.server.streams
    ensures !d.stream.finished ==> d.server.streams[reply] == d.stream
    ensures forall k | k != reply :: (k in d.server.streams <==> k in srv.streams)
    ensures forall k | k != reply && k in srv.streams :: d.server.streams[k] == srv.streams[k]
    ensures Valid(srv) ==> Valid(d.server)
  {
    var s := Lookup(srv, subject, reply);
    var next := if req.Some? then OnRequest(s, req.value, srv.handlers.Keys, Host(srv.nid, bus)) else s;
    Settle(srv, reply, next)
  }

  /** A step of the handler running on the stream registered under `reply`:
      a call it makes on the stream, or its return.  A stream the step tears
      down (a close when the handler returns, or after a failed header flush)
      leaves the registry, as `done` removes it; otherwise the registry holds
      the stream's new state. */
  function HandlerStep(srv: Server, reply: string, e: Event): (d: Dispatch)
    requires reply in srv.streams
    requires !e.action.Inbound? && !e.action.ServerStopped?
    ensures d.stream == Apply(srv.streams[reply], e, srv.nid, srv.handlers.Keys)
    ensures d.server == srv.(streams := d.server.streams)
    ensures d.stream.finished <==> reply !in d.server.streams
    ensures !d.stream.finished ==> d.server.streams[reply] == d.stream
    ensures forall k | k != reply :: (k in d.server.streams <==> k in srv.streams)
    ensures forall k | k != reply && k in srv.streams :: d.server.streams[k] == srv.streams[k]
    ensures Valid(srv) ==> Valid(d.server)
  {
    var s := srv.streams[reply];
    var next := Apply(s, e, srv.nid, srv.handlers.Keys);
    ApplyKeepsIdentity(s, e, srv.nid, srv.handlers.Keys);
    ApplyKeepsValid(s, e, srv.nid, srv.handlers.Keys);
    Settle(srv, reply, next)
  }

  /** The registry after the stream for `reply` has taken the state `next`:
      a finished stream leaves it, any other is filed under its reply
      subject; no other entry changes. */
  function Settle(srv: Server, reply: string, next: ServerStream): (d: Dispatch)
    ensures d.stream == next
    ensures d.server == srv.(streams := d.server.streams)
    ensures next.finished <==> reply !in d.server.streams
    ensures !next.finished ==> d.server.streams[reply] == next
    ensures forall k | k != reply :: (k in d.server.streams <==> k in srv.streams)
    ensures forall k | k != reply && k in srv.streams :: d.server.streams[k] == srv.streams[k]
    ensures Valid(srv) && next.reply == reply && Streams.Valid(next) && (srv.stopped ==> next.cancelled) ==>
      Valid(d.server)
  {
    var streams := if next.finished then srv.streams - {reply} else srv.streams[reply := next];
    Dispatch(srv.(streams := streams), next)
  }

  /** `remove`: drop the stream registered under `reply`, if any. */
  function Remove(srv: Server, reply: string): (r: Server)
    ensures reply !in r.streams
    ensures forall k | k != reply :: (k in r.streams <==> k in srv.streams)
    ensures forall k | k in r.streams :: r.streams[k] == srv.streams[k]
    ensures r == srv.(streams := r.streams)
    ensures Valid(srv) ==> Valid(r)
  {
    srv.(streams := srv.streams - {reply})
  }

  /** `CloseStream`: tear down every stream whose caller is `nid`, and only
      those; `closed` holds them, cancelled, by reply subject. */
  method CloseStream(srv: Server, nid: string) returns (r: Server, closed: map<string, ServerStream>)
    ensures forall k :: k in r.streams <==> k in srv.streams && srv.streams[k].pnid != nid
    ensures forall k | k in r.streams :: r.streams[k] == srv.streams[k]
    ensures forall k :: k in closed <==> k in srv.streams && srv.streams[k].pnid == nid
    ensures forall k | k in closed :: closed[k] == Done(srv.streams[k]) && closed[k].cancelled
    ensures r == srv.(streams := r.streams)
    ensures Valid(srv) ==> Valid(r)
  {
    r := srv;
    closed := map[];
    var pending := srv.streams.Keys;
    while pending != {}
      invariant pending <= srv.streams.Keys
      invariant r == srv.(streams := r.streams)
      invariant forall k :: k in r.streams <==> k in srv.streams && (k in pending || srv.streams[k].pnid != nid)
      invariant forall k | k in r.streams :: r.streams[k] == srv.streams[k]
      invariant forall k :: k in closed <==> k in srv.streams && k !in pending && srv.streams[k].pnid == nid
      invariant forall k | k in closed :: closed[k] == Done(srv.streams[k])
      invariant Valid(srv) ==> Valid(r)
      decreases pending
    {
      var name :| name in pending;
      var st := srv.streams[name];
      if st.pnid == nid {
        closed := closed[name := Done(st)];
        r := Remove(r, name);
      }
      pending := pending - {name};
    }
  }

  /** `Stop`: cancel the server's context, and with it every registered
      stream's.  The streams stay registered. */
  function Stop(srv: Server): (r: Server)
    ensures r.stopped
    ensures r.streams.Keys == srv.streams.Keys
    ensures forall k | k in r.streams :: r.streams[k] == srv.streams[k].(cancelled := true)
    ensures r == srv.(stopped := true, streams := r.streams)
    ensures Valid(srv) ==> Valid(r)
  {
    srv.(stopped := true, streams := map k | k in srv.streams :: Cancel(srv.streams[k]))
  }
}

=== FILE: server_props.dfy ===
/** Properties of the server over message sequences: stream identity by
    reply subject, dispatch to registered handlers, the treatment of unknown
    paths and undecodable messages, and shutdown. */
module ServerProperties {
  import opened Wrappers
  import opened Metadata
  import opened Protocol
  import opened Subjects
  import opened Streams
  import opened Servers
  import opened StreamProperties
  import opened Events

  /** One inbound bus message: its subject, reply subject, decoded Request
      (None when it did not decode) and the state of the bus at the
      publishes it causes. */
  datatype BusMessage = BusMessage(subject: string, reply: string, req: Option<Request>, bus: Bus)

  /** The server after delivering `msgs` in order. */
  function Deliver(srv: Server, msgs: seq<BusMessage>): Server
    decreases |msgs|
  {
    if msgs == [] then srv
    else
      var m := msgs[0];
      Deliver(OnMessage(srv, m.subject, m.reply, m.req, m.bus).server, msgs[1..])
  }

  /** Every delivery sequence keeps the server invariant, so the registry
      never holds a torn-down stream or one filed under another reply
      subject. */
  lemma {:induction false} DeliverKeepsValid(srv: Server, msgs: seq<BusMessage>)
    requires Servers.Valid(srv)
    ensures Servers.Valid(Deliver(srv, msgs))
    decreases |msgs|
  {
    if msgs != [] {
      var m := msgs[0];
      DeliverKeepsValid(OnMessage(srv, m.subject, m.reply, m.req, m.bus).server, msgs[1..]);
    }
  }

  /** Delivery changes only the stream registry: handlers, subscriptions,
      services and the node id stay as registered. */
  lemma {:induction false} DeliverKeepsTables(srv: Server, msgs: seq<BusMessage>)
    ensures Deliver(srv, msgs) == srv.(streams := Deliver(srv, msgs).streams)
    decreases |msgs|
  {
    if msgs != [] {
      var m := msgs[0];
      DeliverKeepsTables(OnMessage(srv, m.subject, m.reply, m.req, m.bus).server, msgs[1..]);
    }
  }

  /** Messages for other reply subjects leave a stream alone: it is still the
      same registered stream afterwards. */
  lemma {:induction false} OtherRepliesLeaveStream(srv: Server, msgs: seq<BusMessage>, reply: string)
    requires reply in srv.streams
    requires forall i | 0 <= i < |msgs| :: msgs[i].reply != reply
    ensures reply in Deliver(srv, msgs).streams
    ensures Deliver(srv, msgs).streams[reply] == srv.streams[reply]
    decreases |msgs|
  {
    if msgs != [] {
      var m := msgs[0];
      OtherRepliesLeaveStream(OnMessage(srv, m.subject, m.reply, m.req, m.bus).server, msgs[1..], reply);
    }
  }

  /** A second message with the same reply subject reaches the stream the
      first one created, whatever subject it was published on. */
  lemma SameReplySameStream(srv: Server, s1: string, s2: string, reply: string, r1: Request, r2: Request, bus: Bus)
    requires reply !in srv.streams
    requires r1.Data?
    ensures var d1 := OnMessage(srv, s1, reply, Some(r1), bus);
      var d2 := OnMessage(d1.server, s2, reply, Some(r2), bus);
      && reply in d1.server.streams
      && d2.stream.path == s1
      && d2.stream.queue[..1] == d1.stream.queue
  {
  }

  /** An undecodable message still creates and registers a stream for its
      reply subject, with no caller recorded. */
  lemma UndecodableRegistersStream(srv: Server, subject: string, reply: string, bus: Bus)
    requires reply !in srv.streams
    ensures var d := OnMessage(srv, subject, reply, None, bus);
      reply in d.server.streams && d.server.streams[reply].pnid == "" && d.stream.out == []
  {
  }

  /** A Call on a path without a handler is answered with a single End
      carrying Unimplemented, and its reply subject leaves the registry. */
  lemma UnknownPathAnswered(srv: Server, subject: string, reply: string, md: Option<MD>, caller: string)
    requires reply !in srv.streams && subject !in srv.handlers
    ensures var d := OnMessage(srv, subject, reply, Some(Request.Call(md, caller)), Steady(Connected));
      && d.stream.out == [Response.End(Unimplemented, None)]
      && reply !in d.server.streams
      && d.server.streams == srv.streams
  {
    var d := OnMessage(srv, subject, reply, Some(Request.Call(md, caller)), Steady(Connected));
    assert d.server.streams.Keys == srv.streams.Keys;
  }

  /** After a service is registered, a Call on one of its method paths starts
      the handler on a registered stream that records the caller. */
  lemma RegisteredCallStartsHandler(nid: string, sd: ServiceDesc, m: MethodDesc, reply: string, md: Option<MD>, caller: string)
    requires m in sd.methods
    ensures var srv := RegisterService(NewServer(nid), sd).value;
      var path := HandlerPath(Prefix(nid, sd.name), m.name);
      var d := OnMessage(srv, path, reply, Some(Request.Call(md, caller)), Steady(Connected));
      && path in srv.handlers
      && d.stream.invocations == 1 && d.stream.pnid == caller && d.stream.md == md
      && reply in d.server.streams && d.server.streams[reply] == d.stream
  {
    var prefix := Prefix(nid, sd.name);
    assert HandlerPath(prefix, m.name) in ServicePaths(prefix, sd);
    assert Merge(None, md) == md;
  }

  /** A caller's cancelling End tears its stream down and removes it; a
      later message on the same reply subject starts a new stream. */
  lemma CancelThenFresh(srv: Server, subject: string, reply: string, st: Status, req: Request, bus: Bus)
    requires Servers.Valid(srv) && reply in srv.streams
    ensures var d := OnMessage(srv, subject, reply, Some(Request.End(Some(st))), bus);
      && d.stream.finished && d.stream.cancelled
      && reply !in d.server.streams
      && OnMessage(d.server, subject, reply, Some(req), bus).stream.path == subject
  {
  }

  /** After shutdown every registered stream's receiver is released: with
      nothing queued it reports cancellation, whichever case the scheduler
      takes; streams created afterwards are cancelled from the start. */
  lemma StopReleasesReceivers(srv: Server, pick: Pick, subject: string, reply: string, bus: Bus)
    requires Servers.Valid(srv)
    ensures var s := Stop(srv);
      forall k | k in s.streams && s.streams[k].queue == [] && s.streams[k].writeOpen ::
        RecvMsg(s.streams[k], pick).result == Canceled
    ensures reply !in srv.streams ==> OnMessage(Stop(srv), subject, reply, None, bus).stream.cancelled
  {
  }

  /** A caller's Call, one Data frame and a close-send on a served path:
      the handler's stream is registered under the reply subject with the
      caller's metadata and node id, the message is queued ahead of end of
      input, and nothing has been published yet. */
  lemma CallDataCloseSend(srv: Server, path: string, reply: string, md: MD, caller: string, payload: Bytes, bus: Bus)
    requires path in srv.handlers && reply !in srv.streams && payload != []
    ensures var after := Deliver(srv, [
        BusMessage(path, reply, Some(Request.Call(Some(md), caller)), bus),
        BusMessage(path, reply, Some(Request.Data(payload)), bus),
        BusMessage(path, reply, Some(Request.End(None)), bus)]);
      && reply in after.streams
      && after.streams[reply].queue == [Some(payload), None]
      && after.streams[reply].md == Some(md)
      && after.streams[reply].pnid == caller
      && !after.streams[reply].writeOpen
      && after.streams[reply].out == []
  {
    var m1 := BusMessage(path, reply, Some(Request.Call(Some(md), caller)), bus);
    var m2 := BusMessage(path, reply, Some(Request.Data(payload)), bus);
    var m3 := BusMessage(path, reply, Some(Request.End(None)), bus);
    var d1 := OnMessage(srv, m1.subject, m1.reply, m1.req, m1.bus);
    assert Merge(None, Some(md)) == Some(md);
    assert d1.stream.md == Some(md) && d1.stream.out == [] && !d1.stream.finished;
    var d2 := OnMessage(d1.server, m2.subject, m2.reply, m2.req, m2.bus);
    assert d2.stream.queue == [Some(payload)];
    var d3 := OnMessage(d2.server, m3.subject, m3.reply, m3.req, m3.bus);
    assert d3.stream.queue == [Some(payload), None];
    assert Deliver(d2.server, [m3]) == d3.server by {
      assert [m3][1..] == [];
    }
    assert Deliver(d1.server, [m2, m3]) == d3.server by {
      assert [m2, m3][1..] == [m3];
    }
    assert [m1, m2, m3][1..] == [m2, m3];
  }

  /** Registering the Echo service on node nodeA installs the unary handler
      path `nrpc.nodeA.Echo.Say` and subscribes to `nrpc.nodeA.Echo.>`. */
  lemma EchoRegistered()
    ensures var srv := RegisterService(NewServer("nodeA"), ServiceDesc("Echo", [MethodDesc("Say")], [], "echo.proto"));
      && srv.Success?
      && "nrpc.nodeA.Echo.Say" in srv.value.handlers
      && srv.value.handlers["nrpc.nodeA.Echo.Say"] == Unary
      && srv.value.subs["Echo"].subject == "nrpc.nodeA.Echo.>"
  {
    var sd := ServiceDesc("Echo", [MethodDesc("Say")], [], "echo.proto");
    var path := "nrpc.nodeA.Echo.Say";
    assert HandlerPath(Prefix("nodeA", "Echo"), "Say") == path;
    assert SubscriptionSubject(Prefix("nodeA", "Echo")) == "nrpc.nodeA.Echo.>";
    assert MethodDesc("Say") in sd.methods;
    assert Names(sd.streams, StreamName) == [];
  }

  /** A handler's return closes its stream and `done` drops the reply
      subject from the registry, unless the stream was cancelled first: then
      nothing happens (a registered stream is never torn down). */
  lemma HandlerReturnRemoves(srv: Server, reply: string, err: Status, result: HandlerResult, bus: Bus)
    requires reply in srv.streams
    ensures var d := HandlerStep(srv, reply, Event(StreamReturned(err), bus));
      !srv.streams[reply].cancelled ==> d.stream.finished && reply !in d.server.streams
    ensures var d := HandlerStep(srv, reply, Event(UnaryReturned(result), bus));
      !srv.streams[reply].cancelled ==> d.stream.finished && reply !in d.server.streams
    ensures srv.streams[reply].cancelled && !srv.streams[reply].finished ==>
      HandlerStep(srv, reply, Event(StreamReturned(err), bus)).server == srv
    ensures srv.streams[reply].cancelled && !srv.streams[reply].finished ==>
      HandlerStep(srv, reply, Event(UnaryReturned(result), bus)).server == srv
  {
    if !srv.streams[reply].cancelled {
      StreamReturnRemoves(srv, reply, err, bus);
      UnaryReturnRemoves(srv, reply, result, bus);
    } else if !srv.streams[reply].finished {
      ReturnAfterCancelKeeps(srv, reply, err, result, bus);
    }
  }

  /** The streaming wrapper's return finishes the stream and removes it. */
  lemma StreamReturnRemoves(srv: Server, reply: string, err: Status, bus: Bus)
    requires reply in srv.streams && !srv.streams[reply].cancelled
    ensures var d := HandlerStep(srv, reply, Event(StreamReturned(err), bus));
      d.stream.finished && reply !in d.server.streams
  {
    var e := Event(StreamReturned(err), bus);
    assert Apply(srv.streams[reply], e, srv.nid, srv.handlers.Keys).finished;
  }

  /** The unary wrapper's return finishes the stream and removes it. */
  lemma UnaryReturnRemoves(srv: Server, reply: string, result: HandlerResult, bus: Bus)
    requires reply in srv.streams && !srv.streams[reply].cancelled
    ensures var d := HandlerStep(srv, reply, Event(UnaryReturned(result), bus));
      d.stream.finished && reply !in d.server.streams
  {
    var e := Event(UnaryReturned(result), bus);
    assert Apply(srv.streams[reply], e, srv.nid, srv.handlers.Keys).finished;
  }

  /** A return after cancellation changes neither the stream nor the registry. */
  lemma ReturnAfterCancelKeeps(srv: Server, reply: string, err: Status, result: HandlerResult, bus: Bus)
    requires reply in srv.streams && srv.streams[reply].cancelled && !srv.streams[reply].finished
    ensures HandlerStep(srv, reply, Event(StreamReturned(err), bus)).server == srv
    ensures HandlerStep(srv, reply, Event(UnaryReturned(result), bus)).server == srv
  {
    var s := srv.streams[reply];
    assert Apply(s, Event(StreamReturned(err), bus), srv.nid, srv.handlers.Keys) == s;
    assert Apply(s, Event(UnaryReturned(result), bus), srv.nid, srv.handlers.Keys) == s;
    assert srv.streams[reply := s] == srv.streams;
  }

  /** After a handler's return removed its stream, a late message on the
      same reply subject starts a new stream instead of reaching the closed
      one. */
  lemma LateMessageAfterReturn(srv: Server, reply: string, err: Status, subject: string, req: Request, bus: Bus)
    requires reply in srv.streams && !srv.streams[reply].cancelled
    ensures var after := HandlerStep(srv, reply, Event(StreamReturned(err), bus)).server;
      var d := OnMessage(after, subject, reply, Some(req), bus);
      d.stream == OnRequest(NewStream(subject, reply, srv.stopped), req, srv.handlers.Keys, Host(srv.nid, bus))
  {
  }
}

=== FILE: stream_props.dfy ===
/** Properties of the stream state machine over whole runs: the header
    protocol, close-send, in-order delivery, cancellation, and example
    exchanges such as a unary echo. */
module StreamProperties {
  import opened Wrappers
  import opened Metadata
  import opened Protocol
  import opened Streams
  import opened Events

  /** The stream after the events `evs`, in order. */
  function Run(s: ServerStream, evs: seq<Event>, nid: string, handlers: set<string>): ServerStream
    decreases |evs|
  {
    if evs == [] then s else Run(Apply(s, evs[0], nid, handlers), evs[1..], nid, handlers)
  }

  /** Every run keeps the stream invariant. */
  lemma {:induction false} RunKeepsValid(s: ServerStream, evs: seq<Event>, nid: string, handlers: set<string>)
    requires Valid(s)
    ensures Valid(Run(s, evs, nid, handlers))
    decreases |evs|
  {
    if evs != [] {
      ApplyKeepsValid(s, evs[0], nid, handlers);
      RunKeepsValid(Apply(s, evs[0], nid, handlers), evs[1..], nid, handlers);
    }
  }

  /** Whatever happens to a stream, at most one Begin is ever published, and
      only as the first envelope; an End is published only by the close that
      tears the stream down. */
  lemma OneBeginNoEarlyEnd(path: string, reply: string, serverCancelled: bool, evs: seq<Event>, nid: string, handlers: set<string>)
    ensures var s := Run(NewStream(path, reply, serverCancelled), evs, nid, handlers);
      && (forall i | 0 <= i < |s.out| && s.out[i].Begin? :: i == 0)
      && (!s.finished ==> forall i | 0 <= i < |s.out| :: !s.out[i].End?)
  {
    RunKeepsValid(NewStream(path, reply, serverCancelled), evs, nid, handlers);
  }

  /** Once the header has begun, no run changes it any more. */
  lemma {:induction false} HeaderFrozen(s: ServerStream, evs: seq<Event>, nid: string, handlers: set<string>)
    requires s.hasBegun
    ensures Run(s, evs, nid, handlers).hasBegun
    ensures Run(s, evs, nid, handlers).header == s.header
    decreases |evs|
  {
    if evs != [] {
      var next := Apply(s, evs[0], nid, handlers);
      assert next.hasBegun && next.header == s.header;
      HeaderFrozen(next, evs[1..], nid, handlers);
    }
  }

  /** A second close-send changes nothing, and a Data frame after close-send
      is dropped. */
  lemma CloseSendOnce(s: ServerStream, payload: Bytes)
    ensures ProcessEnd(ProcessEnd(s, None), None) == ProcessEnd(s, None)
    ensures ProcessData(ProcessEnd(s, None), payload) == ProcessEnd(s, None)
    ensures s.writeOpen ==> ProcessEnd(s, None).queue == s.queue + [None]
  {
  }

  /** The queue items a sequence of Data frames becomes. */
  function Items(ps: seq<Bytes>): (r: seq<Option<Bytes>>)
    ensures |r| == |ps|
  {
    if ps == [] then [] else [Arrived(ps[0])] + Items(ps[1..])
  }

  /** The receive results that deliver `ps` in order. */
  function Messages(ps: seq<Bytes>): seq<Received> {
    if ps == [] then [] else [Message(ps[0])] + Messages(ps[1..])
  }

  /** The stream after Data frames carrying `ps`. */
  function Feed(s: ServerStream, ps: seq<Bytes>): ServerStream
    decreases |ps|
  {
    if ps == [] then s else Feed(ProcessData(s, ps[0]), ps[1..])
  }

  /** Receive (with the queue preferred) until something other than a message
      comes back. */
  function Drain(s: ServerStream): seq<Received>
    decreases |s.queue|
  {
    var r := RecvMsg(s, PickQueue);
    if r.result.Message? then [r.result] + Drain(r.stream) else [r.result]
  }

  /** While the sending side is open, Data frames are queued in arrival order. */
  lemma {:induction false} FeedQueues(s: ServerStream, ps: seq<Bytes>)
    requires s.writeOpen
    ensures Feed(s, ps) == s.(queue := s.queue + Items(ps))
    decreases |ps|
  {
    if ps == [] {
      assert s.queue + Items(ps) == s.queue;
    } else {
      var next := ProcessData(s, ps[0]);
      FeedQueues(next, ps[1..]);
      assert s.queue + [Arrived(ps[0])] + Items(ps[1..]) == s.queue + Items(ps);
    }
  }

  /** A live stream whose queue holds non-empty messages followed by the
      end-of-input item delivers exactly those messages, in order, and then
      end of stream. */
  lemma {:induction false} DrainDelivers(s: ServerStream, ps: seq<Bytes>)
    requires !s.cancelled
    requires forall i | 0 <= i < |ps| :: ps[i] != []
    requires s.queue == Items(ps) + [None]
    ensures Drain(s) == Messages(ps) + [EndOfStream]
    decreases |ps|
  {
    if ps == [] {
    } else {
      var r := RecvMsg(s, PickQueue);
      assert s.queue[0] == Some(ps[0]);
      assert r.stream.queue == Items(ps[1..]) + [None];
      DrainDelivers(r.stream, ps[1..]);
    }
  }

  /** A caller that sends non-empty messages and then closes its sending side
      has the handler receive exactly those messages, in order, followed by
      end of stream, never an error. */
  lemma ClientStreamDelivered(s: ServerStream, ps: seq<Bytes>)
    requires s.writeOpen && s.queue == [] && !s.cancelled
    requires forall i | 0 <= i < |ps| :: ps[i] != []
    ensures Drain(ProcessEnd(Feed(s, ps), None)) == Messages(ps) + [EndOfStream]
  {
    FeedQueues(s, ps);
    assert [] + Items(ps) == Items(ps);
    DrainDelivers(ProcessEnd(Feed(s, ps), None), ps);
  }

  /** An empty message is indistinguishable from close-send: the handler's
      next receive reports end of stream although the caller's side is open. */
  lemma EmptyMessageReadsAsEnd(s: ServerStream)
    requires s.writeOpen && s.queue == [] && !s.cancelled
    ensures RecvMsg(ProcessData(s, []), PickQueue).result == EndOfStream
    ensures ProcessData(s, []).writeOpen
  {
  }

  /** A live stream with nothing queued blocks its receiver; once the
      caller's End with a status or a shutdown cancels it, the receive
      reports cancellation whatever the scheduler picks. */
  lemma CancelUnblocksReceive(s: ServerStream, st: Status, pick: Pick)
    requires s.writeOpen && s.queue == []
    ensures !s.cancelled ==> RecvMsg(s, pick).result == Blocked
    ensures RecvMsg(ProcessEnd(s, Some(st)), pick).result == Canceled
    ensures RecvMsg(Cancel(s), pick).result == Canceled
  {
  }

  /** Cancellation does not discard queued messages: when the scheduler takes
      the queue, a message queued before the caller's cancelling End is still
      delivered. */
  lemma CancelledStreamMayDeliver(s: ServerStream, payload: Bytes)
    requires s.writeOpen && s.queue == [] && payload != []
    ensures var t := ProcessEnd(ProcessData(s, payload), Some(Failed("canceled")));
      && t.cancelled
      && RecvMsg(t, PickQueue).result == Message(payload)
      && RecvMsg(t, PickContext).result == Canceled
  {
  }

  /** A Call on a fresh stream whose path has no handler publishes exactly
      one envelope, an End with status Unimplemented, and no Begin. */
  lemma UnimplementedPublishesOnlyEnd(path: string, reply: string, md: Option<MD>, nid: string, handlers: set<string>, server: string)
    requires path !in handlers
    ensures var s := ProcessCall(NewStream(path, reply, false), md, nid, handlers, Host(server, Steady(Connected)));
      && s.out == [Response.End(Unimplemented, None)]
      && s.finished && s.md.None? && s.pnid == "" && s.invocations == 0
  {
  }

  /** Headers set in several calls before the flush are merged into the one
      Begin; afterwards a header write fails. */
  lemma HeadersMergeIntoBegin(s: ServerStream, a: MD, b: MD, server: string, m: Outgoing)
    requires !s.hasBegun && s.header.None? && s.out == []
    ensures var s1 := SetHeader(s, Some(a)).stream;
      var s2 := SetHeader(s1, Some(b)).stream;
      var s3 := SendMsg(s2, m, Host(server, Steady(Connected))).stream;
      && s3.out[0] == Response.Begin(Join(a, b), server)
      && SetHeader(s3, Some(a)) == Step(s3, IllegalHeaderWrite)
  {
  }

  /** Metadata from two Call fragments is merged, values for a repeated key
      kept in arrival order. */
  lemma CallMetadataAccumulates(s: ServerStream, m1: MD, m2: MD, n1: string, n2: string, handlers: set<string>, host: Host, k: string)
    requires s.path in handlers && s.md.None?
    ensures var t := ProcessCall(ProcessCall(s, Some(m1), n1, handlers, host), Some(m2), n2, handlers, host);
      && t.md == Some(Join(m1, m2))
      && Get(t.md.value, k) == Get(m1, k) + Get(m2, k)
      && t.pnid == n2 && t.invocations == s.invocations + 2
  {
  }

  /** The unary echo exchange: Call on `nrpc.nodeA.Echo.Say` from peer nodeA,
      one Data frame, close-send; the handler receives the message and then
      returns it.  No header was set, so no Begin is published: the caller
      sees the echoed Data and an OK End. */
  lemma EchoExchange(hello: Bytes)
    requires hello != []
    ensures var path := "nrpc.nodeA.Echo.Say";
      var host := Host("nodeA", Steady(Connected));
      var s0 := NewStream(path, "_INBOX.123", false);
      var s1 := ProcessCall(s0, Some(map["x" := ["1"]]), "nodeA", {path}, host);
      var s2 := ProcessEnd(ProcessData(s1, hello), None);
      var r := RecvMsg(s2, PickQueue);
      var s3 := UnaryReturn(r.stream, Returned(Encoded(hello)), host);
      && s1.md == Some(map["x" := ["1"]]) && s1.pnid == "nodeA"
      && r.result == Message(hello)
      && s3.out == [Response.Data(hello), Response.End(Ok, None)]
      && s3.finished
  {
  }

  /** A unary response that cannot be marshalled is dropped without error: the
      call ends with OK and no message. */
  lemma UnencodableResponseEndsOk(s: ServerStream, server: string)
    requires !s.cancelled && s.header.None? && s.out == [] && !s.hasBegun
    ensures UnaryReturn(s, Returned(Unencodable), Host(server, Steady(Connected))).out == [Response.End(Ok, s.trailer)]
  {
  }

  /** A failed header flush in SendMsg closes the stream and returns the
      failure; a failed Data publish after the flush is not reported. */
  lemma OnlyHeaderFailureCloses(s: ServerStream, h: MD, payload: Bytes, server: string, reason: string)
    requires !s.hasBegun && !s.finished
    ensures var r := SendMsg(s.(header := Some(h)), Encoded(payload), Host(server, Steady(Broken(reason))));
      r.err == Failed(reason) && r.stream.finished
    ensures var begun := s.(hasBegun := true);
      var r := SendMsg(begun, Encoded(payload), Host(server, Steady(Broken(reason))));
      r.err == Ok && !r.stream.finished && r.stream.out == begun.out
  {
  }

  /** A header flush that fails while the bus still takes the End: SendMsg
      returns the failure and the caller receives it as the call's final
      status, with no Begin and no message. */
  lemma FlushFailureEndsCall(s: ServerStream, h: MD, payload: Bytes, server: string, reason: string)
    requires !s.hasBegun && !s.finished
    ensures var r := SendMsg(s.(header := Some(h)), Encoded(payload), Host(server, Bus(Broken(reason), Connected, Connected)));
      && r.err == Failed(reason) && r.stream.finished
      && r.stream.out == s.out + [Response.End(Failed(reason), s.trailer)]
  {
  }

  /** Nothing stops a handler from sending after its stream was closed: the
      message is published after the End that closed the call. */
  lemma DataAfterEnd(s: ServerStream, payload: Bytes, server: string)
    ensures var host := Host(server, Steady(Connected));
      var c := Close(s, Ok, host);
      var r := SendMsg(c, Encoded(payload), host);
      && c.finished
      && |c.out| > 0 && c.out[|c.out| - 1] == Response.End(Ok, s.trailer)
      && r.err == Ok
      && r.stream.out == c.out + [Response.Data(payload)]
  {
  }
}

=== FILE: streams.dfy ===
/** The server side of one call stream, as an immutable record and pure
    transitions.  A stream is identified by the caller's reply subject.
    Publishing a Response appends it to the stream's outbox `out`; a failed
    publish appends nothing and yields the bus's error.  Cancellation of the
    stream's context is the flag `cancelled`; `finished` records that the
    stream has been torn down (cancelled and removed from the registry). */
module Streams {
  import opened Wrappers
  import opened Metadata
  import opened Protocol

  /** The state of the bus connection at the time of a publish. */
  datatype Link = Connected | Broken(reason: string)

  /** The state of the bus at each publish one operation can make: the
      header flush, the message, and the closing End.  Each publish succeeds
      or fails on its own. */
  datatype Bus = Bus(begin: Link, data: Link, end: Link)

  /** A bus whose every publish sees the same state. */
  function Steady(link: Link): Bus {
    Bus(link, link, link)
  }

  /** What a stream needs from its server when it publishes: the server's
      node id (carried in Begin) and the bus. */
  datatype Host = Host(nid: string, bus: Bus)

  datatype ServerStream = ServerStream(
    path: string,             // subject of the first message: the handler path
    reply: string,            // reply subject: identity and return address
    pnid: string,             // node id of the calling peer
    md: Option<MD>,           // metadata received from the caller
    header: Option<MD>,       // header to send
    trailer: Option<MD>,      // trailer to send
    hasBegun: bool,           // the header has been flushed (or the attempt made)
    writeOpen: bool,          // the caller has not closed its sending side
    queue: seq<Option<Bytes>>, // inbound messages; None is the end-of-input item
    cancelled: bool,          // the stream's context is cancelled
    finished: bool,           // done() has run
    invocations: nat,         // handler invocations started
    out: seq<Response>)       // published envelopes, oldest first

  /** The new state of a stream and the error (Ok for nil) an operation returns. */
  datatype Step = Step(stream: ServerStream, err: Status)

  /** Which ready case Go's `select` takes when both are ready. */
  datatype Pick = PickContext | PickQueue

  /** What a receive reports: a message, end of input, cancellation, or that
      the caller would block. */
  datatype Received = Message(payload: Bytes) | EndOfStream | Canceled | Blocked

  datatype Recv = Recv(stream: ServerStream, result: Received)

  /** A handler's outgoing message, before marshalling. */
  datatype Outgoing = Encoded(payload: Bytes) | Unencodable

  /** How a unary handler returned: with a response, or with an error. */
  datatype HandlerResult = Returned(response: Outgoing) | Raised(err: Status)

  /** The invariant every reachable stream keeps: nothing is published before
      the header flush; a Begin can only be the first envelope; once a Begin
      is out the header is the one it carried; a torn-down stream is
      cancelled; and an End is only published by the close that tears the
      stream down. */
  ghost predicate Valid(s: ServerStream) {
    && (!s.hasBegun ==> s.out == [])
    && (forall i | 0 < i < |s.out| :: !s.out[i].Begin?)
    && (|s.out| > 0 && s.out[0].Begin? ==> s.header == Some(s.out[0].header))
    && (s.finished ==> s.cancelled)
    && (!s.finished ==> forall i | 0 <= i < |s.out| :: !s.out[i].End?)
  }

  /** The stream created for the first message addressed to `reply`; its
      context is already cancelled when the server's is. */
  function NewStream(path: string, reply: string, serverCancelled: bool): (s: ServerStream)
    ensures Valid(s)
    ensures s.path == path && s.reply == reply && s.cancelled == serverCancelled
    ensures s.writeOpen && s.queue == [] && s.out == [] && !s.hasBegun && !s.finished
    ensures s.header.None? && s.trailer.None? && s.md.None? && s.pnid == ""
  {
    ServerStream(path, reply, "", None, None, None, false, true, [], serverCancelled, false, 0, [])
  }

  /** Publishing a Response to the reply subject. */
  function Publish(s: ServerStream, resp: Response, link: Link): (r: Step)
    ensures r.err == Ok <==> link.Connected?
    ensures r.err == Ok ==> r.stream == s.(out := s.out + [resp])
    ensures r.err != Ok ==> r.stream == s && r.err == Failed(link.reason)
  {
    match link
    case Connected => Step(s.(out := s.out + [resp]), Ok)
    case Broken(reason) => Step(s, Failed(reason))
  }

  /** The Begin a header flush publishes, if any: none once the header has
      begun, none without a header, none when the publish fails. */
  function Flushed(s: ServerStream, host: Host): seq<Response> {
    if !s.hasBegun && s.header.Some? && host.bus.begin.Connected? then [Response.Begin(s.header.value, host.nid)] else []
  }

  /** `beginMaybe`: the first call marks the header as begun and publishes a
      Begin only if a header has been set; later calls do nothing. */
  function BeginMaybe(s: ServerStream, host: Host): (r: Step)
    ensures r.stream.hasBegun
    ensures s.hasBegun ==> r == Step(s, Ok)
    ensures r.stream == s.(hasBegun := true, out := r.stream.out)
    ensures r.stream.out == s.out || (s.header.Some? && r.stream.out == s.out + [Response.Begin(s.header.value, host.nid)])
    ensures r.stream.out != s.out <==> !s.hasBegun && s.header.Some? && host.bus.begin.Connected?
    ensures r.err != Ok <==> !s.hasBegun && s.header.Some? && host.bus.begin.Broken?
    ensures r.err != Ok ==> r.err == Failed(host.bus.begin.reason)
    ensures Valid(s) ==> Valid(r.stream)
  {
    if s.hasBegun then Step(s, Ok)
    else
      var begun := s.(hasBegun := true);
      if s.header.Some? then Publish(begun, Response.Begin(s.header.value, host.nid), host.bus.begin)
      else Step(begun, Ok)
  }

  /** `done`: cancel the stream's context; the server drops it from the registry. */
  function Done(s: ServerStream): (r: ServerStream)
    ensures r.finished && r.cancelled
    ensures r == s.(cancelled := r.cancelled, finished := r.finished)
    ensures Valid(s) ==> Valid(r)
  {
    s.(cancelled := true, finished := true)
  }

  /** `close(err)`: flush the header if that has not been tried, publish an
      End with the status and the accumulated trailer, and tear the stream
      down.  Publish failures are ignored: a failed flush does not stop the
      End. */
  function Close(s: ServerStream, err: Status, host: Host): (r: ServerStream)
    ensures r.finished && r.cancelled && r.hasBegun
    ensures r == s.(hasBegun := true, cancelled := true, finished := true, out := r.out)
    ensures r.out == s.out + Flushed(s, host) + (if host.bus.end.Connected? then [Response.End(err, s.trailer)] else [])
    ensures Valid(s) ==> Valid(r)
    ensures Valid(s) && !s.finished ==> forall i | 0 <= i < |r.out| - 1 :: !r.out[i].End?
  {
    var begun := BeginMaybe(s, host).stream;
    Done(Publish(begun, Response.End(err, begun.trailer), host.bus.end).stream)
  }

  /** `SetHeader`: fails once the header has begun, leaving the stream as it
      was; before that, merges `header` into the pending header. */
  function SetHeader(s: ServerStream, header: Option<MD>): (r: Step)
    ensures r.err != Ok <==> s.hasBegun
    ensures s.hasBegun ==> r == Step(s, IllegalHeaderWrite)
    ensures !s.hasBegun ==> Joined(s.header, header, r.stream.header)
    ensures r.stream == s.(header := r.stream.header)
    ensures Valid(s) ==> Valid(r.stream)
  {
    if s.hasBegun then Step(s, IllegalHeaderWrite)
    else Step(s.(header := Merge(s.header, header)), Ok)
  }

  /** `SendHeader`: `SetHeader`, then flush the header.  A refused header
      publishes nothing; a failed flush is returned but does not close the
      stream, and the header counts as begun all the same. */
  function SendHeader(s: ServerStream, header: Option<MD>, host: Host): (r: Step)
    ensures s.hasBegun ==> r == Step(s, IllegalHeaderWrite)
    ensures !s.hasBegun ==> r.stream.hasBegun && Joined(s.header, header, r.stream.header)
    ensures r.stream == s.(hasBegun := r.stream.hasBegun, header := r.stream.header, out := r.stream.out)
    ensures !s.hasBegun && r.stream.header.Some? && host.bus.begin.Connected? ==>
      r.err == Ok && r.stream.out == s.out + [Response.Begin(r.stream.header.value, host.nid)]
    ensures !s.hasBegun && r.stream.header.Some? && host.bus.begin.Broken? ==>
      r.err == Failed(host.bus.begin.reason) && r.stream.out == s.out
    ensures !s.hasBegun && r.stream.header.None? ==> r.err == Ok && r.stream.out == s.out
    ensures Valid(s) ==> Valid(r.stream)
  {
    var staged := SetHeader(s, header);
    if staged.err != Ok then staged else BeginMaybe(staged.stream, host)
  }

  /** `SetTrailer`: merges into the trailer whether or not the header has begun. */
  function SetTrailer(s: ServerStream, trailer: Option<MD>): (r: ServerStream)
    ensures Joined(s.trailer, trailer, r.trailer)
    ensures r == s.(trailer := r.trailer)
    ensures Valid(s) ==> Valid(r)
  {
    s.(trailer := Merge(s.trailer, trailer))
  }

  /** `SendMsg`: flush the header, then publish the message.  Only a failed
      header flush is returned, and it closes the stream with the flush error
      as the End's status: a message that cannot be marshalled, or whose
      publish fails, is dropped with a nil error.  Nothing checks whether the
      stream was already closed. */
  function SendMsg(s: ServerStream, m: Outgoing, host: Host): (r: Step)
    ensures r.stream.hasBegun
    ensures r.err != Ok <==> !s.hasBegun && s.header.Some? && host.bus.begin.Broken?
    ensures r.err != Ok ==> r.stream == s.(hasBegun := true, cancelled := true, finished := true, out := r.stream.out)
    ensures r.err != Ok ==>
      && r.err == Failed(host.bus.begin.reason)
      && r.stream.finished && r.stream.cancelled
      && r.stream.out == s.out + (if host.bus.end.Connected? then [Response.End(r.err, s.trailer)] else [])
    ensures r.err == Ok ==> r.stream == s.(hasBegun := true, out := r.stream.out)
    ensures r.err == Ok ==>
      r.stream.out == s.out + Flushed(s, host)
                      + (if m.Encoded? && host.bus.data.Connected? then [Response.Data(m.payload)] else [])
    ensures m.Unencodable? && r.err == Ok ==> forall i | |s.out| <= i < |r.stream.out| :: !r.stream.out[i].Data?
    ensures Valid(s) ==> Valid(r.stream)
  {
    var begun := BeginMaybe(s, host);
    if begun.err != Ok then
      assert Flushed(begun.stream, host) == [];
      Step(Close(begun.stream, begun.err, host), begun.err)
    else
      assert begun.stream.out == s.out + Flushed(s, host);
      Step(PublishMessage(begun.stream, m, host.bus.data), Ok)
  }

  /** The message publish of `SendMsg`: a marshalled message is published
      as Data, and an unmarshallable one, or a failed publish, leaves the
      stream as it was. */
  function PublishMessage(s: ServerStream, m: Outgoing, link: Link): (r: ServerStream)
    ensures r == s.(out := r.out)
    ensures r.out == s.out + (if m.Encoded? && link.Connected? then [Response.Data(m.payload)] else [])
    ensures Valid(s) && s.hasBegun ==> Valid(r)
  {
    match m
    case Encoded(payload) => Publish(s, Response.Data(payload), link).stream
    case Unencodable => s
  }

  /** The queue item a Data frame becomes.  The wire format does not encode
      an empty bytes field, so an empty payload arrives as nil, the same
      item the close-send sentinel is. */
  function Arrived(payload: Bytes): (r: Option<Bytes>)
    ensures r.None? <==> payload == []
    ensures r.Some? ==> r.value == payload
  {
    if payload == [] then None else Some(payload)
  }

  /** `processCall`: an unregistered method ends the stream with
      Unimplemented and touches nothing else; a registered one merges the
      call metadata, records the caller's node id and starts the handler. */
  function ProcessCall(s: ServerStream, metadata: Option<MD>, nid: string, handlers: set<string>, host: Host): (r: ServerStream)
    ensures s.path !in handlers ==>
      && r.finished && r.md == s.md && r.pnid == s.pnid && r.invocations == s.invocations
      && (host.bus.end.Connected? ==> |r.out| > 0 && r.out[|r.out| - 1] == Response.End(Unimplemented, s.trailer))
      && (forall i | |s.out| <= i < |r.out| :: !r.out[i].Data?)
    ensures s.path !in handlers ==>
      && r == s.(hasBegun := true, cancelled := true, finished := true, out := r.out)
      && r.out == s.out + Flushed(s, host) + (if host.bus.end.Connected? then [Response.End(Unimplemented, s.trailer)] else [])
    ensures s.path in handlers ==>
      && Joined(s.md, metadata, r.md) && r.pnid == nid && r.invocations == s.invocations + 1
      && r == s.(md := r.md, pnid := nid, invocations := r.invocations)
    ensures Valid(s) ==> Valid(r)
  {
    if s.path !in handlers then Close(s, Unimplemented, host)
    else s.(md := Merge(s.md, metadata), pnid := nid, invocations := s.invocations + 1)
  }

  /** `processData`: queue the message while the caller's sending side is
      open; drop it after close-send. */
  function ProcessData(s: ServerStream, payload: Bytes): (r: ServerStream)
    ensures !s.writeOpen ==> r == s
    ensures s.writeOpen ==> r == s.(queue := s.queue + [Arrived(payload)])
    ensures Valid(s) ==> Valid(r)
  {
    if s.writeOpen then s.(queue := s.queue + [Arrived(payload)]) else s
  }

  /** `processEnd`: with a status, tear the stream down; without one
      (close-send), queue the end-of-input item and close the sending side,
      once. */
  function ProcessEnd(s: ServerStream, status: Option<Status>): (r: ServerStream)
    ensures status.Some? ==> r == s.(cancelled := true, finished := true)
    ensures status.None? ==> !r.writeOpen && r.cancelled == s.cancelled && r.finished == s.finished
    ensures status.None? && s.writeOpen ==> r == s.(queue := s.queue + [None], writeOpen := false)
    ensures status.None? && !s.writeOpen ==> r == s
    ensures Valid(s) ==> Valid(r)
  {
    if status.Some? then Done(s)
    else if s.writeOpen then s.(queue := s.queue + [None], writeOpen := false)
    else s
  }

  /** `onRequest`: dispatch one decoded Request to its transition. */
  function OnRequest(s: ServerStream, req: Request, handlers: set<string>, host: Host): (r: ServerStream)
    ensures Valid(s) ==> Valid(r)
    ensures r.path == s.path && r.reply == s.reply
    ensures s.cancelled ==> r.cancelled
    ensures req.Call? && s.path in handlers ==>
      && Joined(s.md, req.metadata, r.md) && r.pnid == req.nid && r.invocations == s.invocations + 1
      && r == s.(md := r.md, pnid := r.pnid, invocations := r.invocations)
    ensures req.Call? && s.path !in handlers ==>
      && r == s.(hasBegun := true, cancelled := true, finished := true, out := r.out)
      && r.out == s.out + Flushed(s, host) + (if host.bus.end.Connected? then [Response.End(Unimplemented, s.trailer)] else [])
    ensures req.Data? && s.writeOpen ==> r == s.(queue := s.queue + [Arrived(req.payload)])
    ensures req.Data? && !s.writeOpen ==> r == s
    ensures req.End? && req.status.Some? ==> r == s.(cancelled := true, finished := true)
    ensures req.End? && req.status.None? && s.writeOpen ==> r == s.(queue := s.queue + [None], writeOpen := false)
    ensures req.End? && req.status.None? && !s.writeOpen ==> r == s
  {
    match req
    case Call(metadata, nid) => ProcessCall(s, metadata, nid, handlers, host)
    case Data(payload) => ProcessData(s, payload)
    case End(status) => ProcessEnd(s, status)
  }

  /** The inbound queue has something to receive: an item, or it is closed. */
  predicate QueueReady(s: ServerStream) {
    |s.queue| > 0 || !s.writeOpen
  }

  /** `RecvMsg`: waits for the context to be cancelled or the queue to yield.
      When both are ready Go's `select` chooses either; `pick` is that choice.
      A queued message is returned; the end-of-input item or a closed, empty
      queue reports end of stream; a cancelled context reports cancellation. */
  function RecvMsg(s: ServerStream, pick: Pick): (r: Recv)
    ensures !s.cancelled && !QueueReady(s) ==> r == Recv(s, Blocked)
    ensures s.cancelled && (!QueueReady(s) || pick == PickContext) ==> r == Recv(s, Canceled)
    ensures QueueReady(s) && (!s.cancelled || pick == PickQueue) ==>
      if |s.queue| > 0 then
        && r.stream == s.(queue := s.queue[1..])
        && r.result == (if s.queue[0].Some? then Message(s.queue[0].value) else EndOfStream)
      else r == Recv(s, EndOfStream)
    ensures r.result.Message? ==> |r.stream.queue| < |s.queue|
    ensures Valid(s) ==> Valid(r.stream)
  {
    if s.cancelled && (!QueueReady(s) || pick == PickContext) then Recv(s, Canceled)
    else if !QueueReady(s) then Recv(s, Blocked)
    else if |s.queue| == 0 then Recv(s, EndOfStream)
    else
      var rest := s.(queue := s.queue[1..]);
      match s.queue[0]
      case Some(payload) => Recv(rest, Message(payload))
      case None => Recv(rest, EndOfStream)
  }

  /** What the unary handler wrapper does once the handler has returned:
      nothing if the stream was cancelled meanwhile; otherwise close with the
      handler's error, or send the response and close with OK when the send
      reported no error. */
  function UnaryReturn(s: ServerStream, result: HandlerResult, host: Host): (r: ServerStream)
    ensures s.cancelled ==> r == s
    ensures !s.cancelled ==> r.finished
    ensures !s.cancelled ==> r == s.(hasBegun := true, cancelled := true, finished := true, out := r.out)
    ensures !s.cancelled && result.Raised? ==>
      r.out == s.out + Flushed(s, host) + (if host.bus.end.Connected? then [Response.End(result.err, s.trailer)] else [])
    ensures !s.cancelled && result.Returned? && (s.hasBegun || s.header.None? || host.bus.begin.Connected?) ==>
      r.out == s.out + Flushed(s, host)
               + (if result.response.Encoded? && host.bus.data.Connected? then [Response.Data(result.response.payload)] else [])
               + (if host.bus.end.Connected? then [Response.End(Ok, s.trailer)] else [])
    ensures !s.cancelled && result.Returned? && !s.hasBegun && s.header.Some? && host.bus.begin.Broken? ==>
      r.out == s.out + (if host.bus.end.Connected? then [Response.End(Failed(host.bus.begin.reason), s.trailer)] else [])
    ensures Valid(s) ==> Valid(r)
  {
    if s.cancelled then s
    else
      match result
      case Raised(err) => Close(s, err, host)
      case Returned(response) =>
        var sent := SendMsg(s, response, host);
        if sent.err == Ok then Close(sent.stream, Ok, host) else sent.stream
  }

  /** What the streaming handler wrapper does once the handler has returned:
      close with its error unless the stream was cancelled meanwhile. */
  function StreamReturn(s: ServerStream, err: Status, host: Host): (r: ServerStream)
    ensures s.cancelled ==> r == s
    ensures !s.cancelled ==> r.finished
    ensures !s.cancelled ==> r == s.(hasBegun := true, cancelled := true, finished := true, out := r.out)
    ensures !s.cancelled ==>
      r.out == s.out + Flushed(s, host) + (if host.bus.end.Connected? then [Response.End(err, s.trailer)] else [])
    ensures Valid(s) ==> Valid(r)
  {
    if s.cancelled then s else Close(s, err, host)
  }

  /** Cancellation from the server's context (server shutdown). */
  function Cancel(s: ServerStream): (r: ServerStream)
    ensures r == s.(cancelled := true)
    ensures Valid(s) ==> Valid(r)
  {
    s.(cancelled := true)
  }
}

=== FILE: subjects.dfy ===
/** Subject naming on the bus.  A service is served under the prefix
    `nrpc.<service>` (or `nrpc.<nid>.<service>` when the server has a node
    id), subscribed with the wildcard subject `<prefix>.>`, and each method
    is addressed by the handler path `<prefix>.<method>`.  Subjects are
    '.'-separated token lists; NATS matches `*` against one token and a final
    `>` against one or more tokens. */
module Subjects {

  /** The subject prefix of `service` on a server with node id `nid`: the
      token `nrpc`, the node id's tokens when the id is non-empty, then the
      service name's tokens. */
  function Prefix(nid: string, service: string): string {
    if |nid| > 0 then "nrpc." + nid + "." + service else "nrpc." + service
  }

  /** The wildcard subject a service is subscribed on: the prefix extended
      by the single token `>`. */
  function SubscriptionSubject(prefix: string): string {
    prefix + ".>"
  }

  /** The path under which the handler of method or stream `name` is
      installed: the prefix's tokens followed by the name's. */
  function HandlerPath(prefix: string, name: string): string {
    prefix + "." + name
  }

  /** A name that is a single subject token. */
  predicate IsToken(s: string) {
    '.' !in s
  }

  /** The tokens of a subject, split at every '.'; a subject always has at
      least one (possibly empty) token. */
  function Tokens(s: string): (r: seq<string>)
    ensures |r| >= 1
    ensures forall i | 0 <= i < |r| :: IsToken(r[i])
    decreases |s|
  {
    if s == [] then [""]
    else if s[0] == '.' then [""] + Tokens(s[1..])
    else
      var t := Tokens(s[1..]);
      [[s[0]] + t[0]] + t[1..]
  }

  /** The subject spelled by a token list: the tokens joined with '.'. */
  function Dotted(ts: seq<string>): string
    requires |ts| >= 1
    decreases |ts|
  {
    if |ts| == 1 then ts[0] else ts[0] + "." + Dotted(ts[1..])
  }

  /** NATS subject matching of a token pattern against a subject's tokens. */
  predicate Matches(pattern: seq<string>, subject: seq<string>)
    decreases |pattern|
  {
    if pattern == [] then subject == []
    else if pattern == [">"] then |subject| >= 1
    else
      && |subject| >= 1
      && (pattern[0] == "*" || pattern[0] == subject[0])
      && Matches(pattern[1..], subject[1..])
  }

  /** The tokens of a node id: none when the id is empty. */
  function NodeTokens(nid: string): seq<string> {
    if |nid| > 0 then Tokens(nid) else []
  }

  /** Splitting is the inverse of joining: a subject is recovered from its tokens. */
  lemma {:induction false} DottedTokens(s: string)
    ensures Dotted(Tokens(s)) == s
    decreases |s|
  {
    if s == [] {
    } else if s[0] == '.' {
      DottedTokens(s[1..]);
      assert ([""] + Tokens(s[1..]))[1..] == Tokens(s[1..]);
    } else {
      DottedTokens(s[1..]);
      var t := Tokens(s[1..]);
      var r := [[s[0]] + t[0]] + t[1..];
      assert r[1..] == t[1..];
      if |t| > 1 {
        assert Dotted(t) == t[0] + "." + Dotted(t[1..]);
      }
    }
  }

  /** Splitting `a.b` yields the tokens of `a` followed by those of `b`. */
  lemma {:induction false} TokensAppend(a: string, b: string)
    ensures Tokens(a + "." + b) == Tokens(a) + Tokens(b)
    decreases |a|
  {
    var s := a + "." + b;
    if a == [] {
      assert s == "." + b;
      assert s[1..] == b;
    } else if a[0] == '.' {
      assert s[1..] == a[1..] + "." + b;
      TokensAppend(a[1..], b);
    } else {
      assert s[0] == a[0];
      assert s[1..] == a[1..] + "." + b;
      TokensAppend(a[1..], b);
      var ta := Tokens(a[1..]);
      var t := Tokens(s[1..]);
      assert t == ta + Tokens(b);
      assert t[0] == ta[0];
      assert t[1..] == ta[1..] + Tokens(b);
    }
  }

  /** A name without '.' is a single token. */
  lemma {:induction false} TokensOfToken(w: string)
    requires IsToken(w)
    ensures Tokens(w) == [w]
    decreases |w|
  {
    if w != [] {
      assert w[0] in w;
      assert IsToken(w[1..]) by {
        forall c | c in w[1..]
          ensures c in w
        {
        }
      }
      TokensOfToken(w[1..]);
      assert [w[0]] + w[1..] == w;
    }
  }

  /** Joining single tokens and splitting again gives the tokens back. */
  lemma {:induction false} TokensDotted(ts: seq<string>)
    requires |ts| >= 1
    requires forall i | 0 <= i < |ts| :: IsToken(ts[i])
    ensures Tokens(Dotted(ts)) == ts
    decreases |ts|
  {
    TokensOfToken(ts[0]);
    if |ts| > 1 {
      TokensDotted(ts[1..]);
      TokensAppend(ts[0], Dotted(ts[1..]));
      assert [ts[0]] + ts[1..] == ts;
    }
  }

  /** The tokens of a prefix: `nrpc`, then the node id's tokens when the id
      is non-empty, then the service name's tokens. */
  lemma PrefixTokens(nid: string, service: string)
    ensures Tokens(Prefix(nid, service)) == ["nrpc"] + NodeTokens(nid) + Tokens(service)
  {
    if |nid| > 0 {
      NodePrefixTokens(nid, service);
    } else {
      HeadTokens(service);
    }
  }

  lemma NodePrefixTokens(nid: string, service: string)
    requires |nid| > 0
    ensures Tokens("nrpc." + nid + "." + service) == ["nrpc"] + Tokens(nid) + Tokens(service)
  {
    var rest := nid + "." + service;
    assert "nrpc." + nid + "." + service == "nrpc." + rest;
    HeadTokens(rest);
    TokensAppend(nid, service);
    var n, t := Tokens(nid), Tokens(service);
    assert ["nrpc"] + (n + t) == ["nrpc"] + n + t;
  }

  /** `nrpc.` followed by a subject is `nrpc` followed by its tokens. */
  lemma HeadTokens(rest: string)
    ensures Tokens("nrpc." + rest) == ["nrpc"] + Tokens(rest)
  {
    var head := "nrpc";
    assert IsToken(head);
    TokensOfToken(head);
    TokensAppend(head, rest);
    assert head + "." + rest == "nrpc." + rest;
  }

  /** A wildcard pattern `ps.>` without `*` tokens matches exactly the
      subjects that extend `ps` by at least one token. */
  lemma {:induction false} MatchesWildcard(ps: seq<string>, t: seq<string>)
    requires forall i | 0 <= i < |ps| :: ps[i] != "*"
    ensures Matches(ps + [">"], t) <==> |t| > |ps| && t[..|ps|] == ps
    decreases |ps|
  {
    if ps != [] {
      var p := ps + [">"];
      assert p[1..] == ps[1..] + [">"];
      if |t| >= 1 {
        MatchesWildcard(ps[1..], t[1..]);
        if |t| > |ps| {
          assert t[..|ps|] == [t[0]] + t[1..][..|ps| - 1];
          assert ps == [ps[0]] + ps[1..];
        }
      }
    }
  }

  /** Every handler path of a service is delivered by the service's wildcard
      subscription, whatever the method name. */
  lemma SubscriptionCoversPath(nid: string, service: string, name: string)
    requires "*" !in Tokens(Prefix(nid, service))
    ensures Matches(Tokens(SubscriptionSubject(Prefix(nid, service))),
                    Tokens(HandlerPath(Prefix(nid, service), name)))
  {
    var prefix := Prefix(nid, service);
    var ps := Tokens(prefix);
    TokensAppend(prefix, ">");
    TokensOfToken(">");
    TokensAppend(prefix, name);
    assert SubscriptionSubject(prefix) == prefix + "." + ">";
    var t := ps + Tokens(name);
    assert t[..|ps|] == ps;
    assert forall i | 0 <= i < |ps| :: ps[i] in ps;
    MatchesWildcard(ps, t);
  }

  /** With single-token service and method names, distinct (service, method)
      pairs of one server have distinct handler paths. */
  lemma HandlerPathInjective(nid: string, s1: string, m1: string, s2: string, m2: string)
    requires IsToken(s1) && IsToken(m1) && IsToken(s2) && IsToken(m2)
    requires HandlerPath(Prefix(nid, s1), m1) == HandlerPath(Prefix(nid, s2), m2)
    ensures s1 == s2 && m1 == m2
  {
    PathTokens(nid, s1, m1);
    PathTokens(nid, s2, m2);
    var n := |NodeTokens(nid)|;
    var t := Tokens(HandlerPath(Prefix(nid, s1), m1));
    assert t[n + 1] == s1 && t[n + 1] == s2;
    assert t[n + 2] == m1 && t[n + 2] == m2;
  }

  lemma PathTokens(nid: string, service: string, name: string)
    requires IsToken(service) && IsToken(name)
    ensures Tokens(HandlerPath(Prefix(nid, service), name)) == ["nrpc"] + NodeTokens(nid) + [service, name]
  {
    PrefixTokens(nid, service);
    TokensAppend(Prefix(nid, service), name);
    TokensOfToken(service);
    TokensOfToken(name);
  }

  /** Within one prefix, distinct names have distinct handler paths. */
  lemma HandlerPathsDiffer(prefix: string, a: string, b: string)
    requires a != b
    ensures HandlerPath(prefix, a) != HandlerPath(prefix, b)
  {
    var n := |prefix| + 1;
    assert HandlerPath(prefix, a)[n..] == a;
    assert HandlerPath(prefix, b)[n..] == b;
  }

  /** Without the single-token restriction two services can install a handler
      under the same path, the later one replacing the earlier. */
  lemma DottedNamesCollide()
    ensures HandlerPath(Prefix("", "a.b"), "c") == HandlerPath(Prefix("", "a"), "b.c")
  {
  }
}

=== FILE: wrappers.dfy ===
/** Optional values and results: Go's nil maps and (value, error) pairs are
    written with these. */
module Wrappers {

  /** A value that may be absent (a nil map or pointer in Go). */
  datatype Option<+T> = None | Some(value: T) {

    /** The carried value, or `default` when absent. */
    function GetOr(default: T): T {
      match this
      case Some(v) => v
      case None => default
    }
  }

  /** The outcome of an operation that can fail with an error of type `E`. */
  datatype Result<+R, +E> = Success(value: R) | Failure(error: E)
}
